=== FILE: README.md ===
# Virtual-height binning, map decimation and field-of-view outlines

This Dafny project models three pieces of the SuperDARN radar toolkit.

- **`select_alt_groups`** splits a sample of virtual heights into altitude
  bins. It works in four stages:
  - It sizes a histogram.
  - It collects the histogram's peaks.
  - It keeps the fitted Gaussian components whose seed lies inside their
    clamped 2σ window, and each kept component becomes a 3σ window.
  - It falls back to evenly spaced bins when there is no peak or no kept
    component.
- **`sort_expand_boundaries`** reconciles the candidate bins. It sorts them
  by lower bound, then:
  - pads the range below them;
  - walks them in order, resolving overlaps by an integer priority and
    bridging gaps;
  - pads the range above them.
- **`map_filter`** decimates a stream of convection-map records. A record
  is written once its start time, measured from a day origin fixed by the
  first record, reaches a threshold that grows by 600 s with every record
  written.
- **`make_fov`** builds one outline per eligible radar. It walks the border
  of the radar's (beam, range) grid in a fixed order.

How the model represents the source:

- Floats are `real`. `floor` and `ceil` are `Numerics.Floor` and
  `Numerics.Ceil`. The C cast `(int)` truncates toward zero
  (`Numerics.Trunc`), and C's `%` truncates too (`Numerics.CRem`).
- Every `exit(1)` is its own `Error` value.
- An out-of-bounds read or write, or a NaN result, is
  `Undefined(fault)`, with one fault per site.
- The source's merge loop need not terminate, so the reconciler's walk
  carries a `fuel` bound and returns `OutOfFuel` when the bound runs out.

Modules:

| module | file | models |
|---|---|---|
| `Numerics` | numerics.dfy | C rounding, truncation and remainder; `Spans`, a repeated sum used in place of products |
| `AltTypes` | alt_types.dfy | bins, intervals, error outcomes |
| `Sorting` | argsort.dfy | a stable argsort by lower bound |
| `Flags` | flags.dfy | masks, and the positions and counts of their set flags |
| `Boundaries` | sort_expand.dfy | `sort_expand_boundaries` |
| `AltGroups` | select_alt_groups.dfy | `select_alt_groups` |
| `MapFilter` | map_filter.dfy | the record selection of `map_filter` |
| `FieldOfView` | make_fov.dfy | `make_fov` |
| `SourceDefects` | defects.dfy | concrete inputs showing the defects kept as written |

## Model

Paths are relative to the repository root.

| member | source | states |
|---|---|---|
| Sorting.ArgSort | codebase/superdarn/src.bin/tk/tool/make_fov.1.0/select_alt_groups.c:327-329 | the order is a permutation of the candidate indices, and it visits the lower bounds in ascending order |
| Boundaries.LowerFillers | codebase/superdarn/src.bin/tk/tool/make_fov.1.0/select_alt_groups.c:348-370 | `vnum` fillers. The first starts at `floor(local_min)`. Each starts at or below the end of the previous one. The last reaches `local_min + vnum·vspan`. Filler `k` has priority `k + num` |
| Boundaries.ExtendLowest | codebase/superdarn/src.bin/tk/tool/make_fov.1.0/select_alt_groups.c:336-343 | only the lowest candidate changes. Its lower bound becomes `floor(local_min)` or `vh_min`, whichever is larger: it is at least both and equal to one of them |
| Boundaries.LowerRange | codebase/superdarn/src.bin/tk/tool/make_fov.1.0/select_alt_groups.c:331-372 | fails exactly when the gap below the lowest candidate holds at least `max_vbin` boxes. On success, fewer than `max_vbin` slots are placed, with sound priorities, and only the lowest candidate's lower bound moves |
| Boundaries.LowerRangeNoGap | codebase/superdarn/src.bin/tk/tool/make_fov.1.0/select_alt_groups.c:333 | with no gap below the data, nothing is added or changed |
| Boundaries.LowerRangeExtends | codebase/superdarn/src.bin/tk/tool/make_fov.1.0/select_alt_groups.c:335-343 | a gap narrower than one box extends the lowest candidate down to the larger of `floor(local_min)` and `vh_min`, with no filler |
| Boundaries.LowerRangeFills | codebase/superdarn/src.bin/tk/tool/make_fov.1.0/select_alt_groups.c:344-371 | a gap of `vnum ≥ 1` whole boxes gets `vnum` fillers. They start at `floor(local_min)`, leave no holes, and reach the lowest candidate |
| Boundaries.TrimTo | codebase/superdarn/src.bin/tk/tool/make_fov.1.0/select_alt_groups.c:401-406 | fails exactly when every slot starts at or above the new bound (the read before the first slot). Otherwise it drops only slots that start at or above the bound, keeps the rest, and ends the last kept slot at the bound |
| Boundaries.ResolveOverlapSound | codebase/superdarn/src.bin/tk/tool/make_fov.1.0/select_alt_groups.c:384-407 | resolving an overlap keeps every slot's lower bound, peak and priority, so sound priorities stay sound |
| Boundaries.ResolveOverlap | codebase/superdarn/src.bin/tk/tool/make_fov.1.0/select_alt_groups.c:384-407 | if the last slot has the stronger priority, one slot is appended from its end to `ceil` of the candidate's top. Otherwise the list is trimmed to the candidate's lower bound, and the candidate is not added |
| Boundaries.Bridge | codebase/superdarn/src.bin/tk/tool/make_fov.1.0/select_alt_groups.c:424-434 | appends `n` slots that abut each other, with priorities `k + num`, reaching at least `n·vspan` above the old end |
| Boundaries.CloseGap | codebase/superdarn/src.bin/tk/tool/make_fov.1.0/select_alt_groups.c:409-436 | a narrow gap moves the last slot's end up to the candidate. A wide gap is bridged up to the candidate and sends the walk to position `vnum + 1`. It fails exactly when the bridge overruns `max_vbin` |
| Boundaries.Place | codebase/superdarn/src.bin/tk/tool/make_fov.1.0/select_alt_groups.c:376-461 | one candidate step ends only in a pop-past-start or gap-overflow error. It keeps at most `max_vbin` slots, preserves sound priorities, and either advances the walk or grows the list |
| Boundaries.Step | codebase/superdarn/src.bin/tk/tool/make_fov.1.0/select_alt_groups.c:375-467 | after a successful step, fails exactly when the list has reached `max_vbin` |
| Boundaries.WalkFrom | codebase/superdarn/src.bin/tk/tool/make_fov.1.0/select_alt_groups.c:374-468 | the merge pass leaves fewer than `max_vbin` slots, preserves sound priorities, and fails only with a reconciler error |
| Boundaries.UpperFiller | codebase/superdarn/src.bin/tk/tool/make_fov.1.0/select_alt_groups.c:488-497 | a filler starts at the last slot's end and reaches `vspan` above it or `vh_max` |
| Boundaries.UpperFillers | codebase/superdarn/src.bin/tk/tool/make_fov.1.0/select_alt_groups.c:484-499 | at most `vnum` abutting fillers; the existing slots are kept as a prefix and the fillers appended after them. Stopping early means `vh_max` was reached. A write past `max_vbin` fails |
| Boundaries.UpperFillersReach | codebase/superdarn/src.bin/tk/tool/make_fov.1.0/select_alt_groups.c:484-499 | the fillers reach the target `left·vspan` above the last slot, unless they stop at `vh_max` |
| Boundaries.UpperRange | codebase/superdarn/src.bin/tk/tool/make_fov.1.0/select_alt_groups.c:470-500 | an empty list is the read before the first slot. Otherwise the last slot ends at or above `local_max` or at `vh_max`, within capacity, with sound priorities |
| Boundaries.RaiseLast | codebase/superdarn/src.bin/tk/tool/make_fov.1.0/select_alt_groups.c:475-481 | a gap under one box only moves the last slot's end, to `ceil(local_max)` or `vh_max`, whichever is lower: it is at most both and equal to one of them |
| Boundaries.FillAbove | codebase/superdarn/src.bin/tk/tool/make_fov.1.0/select_alt_groups.c:482-498 | a gap of `vnum ≥ 1` boxes gets at most `vnum` synthesised slots, kept after the existing ones, and the top then reaches `local_max` or `vh_max` |
| Boundaries.SortExpand | codebase/superdarn/src.bin/tk/tool/make_fov.1.0/select_alt_groups.c:307-518 | empty input yields no bin. On success there are at most `max_vbin` bins, the top reaches `local_max` or `vh_max`, and failures are reconciler errors only |
| Boundaries.SortExpandSound | codebase/superdarn/src.bin/tk/tool/make_fov.1.0/select_alt_groups.c:307-518 | every slot of a successful reconciliation is either a copy of a candidate, carrying its index, or a synthesised slot carrying its position plus the candidate count |
| Boundaries.ReconciledCopiesBack | codebase/superdarn/src.bin/tk/tool/make_fov.1.0/select_alt_groups.c:502-508 | the bounds handed back are those of the reconciled slots, one per slot and in order, and the reconciler's error is passed on unchanged |
| Boundaries.Reconciled | codebase/superdarn/src.bin/tk/tool/make_fov.1.0/select_alt_groups.c:307-518 | the candidates, sorted and reconciled, give at most `max_vbin` bounds whose top reaches `local_max` or `vh_max`; no candidate gives no bound |
| AltGroups.HistBinCount | codebase/superdarn/src.bin/tk/tool/make_fov.1.0/select_alt_groups.c:77-88 | the count is `trunc((vh_max − vh_min)/(0.25·vh_box))` capped at 10. It is a configuration error exactly when that quotient is below 1 |
| AltGroups.AugmentPeaks | codebase/superdarn/src.bin/tk/tool/make_fov.1.0/select_alt_groups.c:100-107 | the count grows by one exactly when the absolute maximum is unflagged and the count at index `nmax` is significant. Only the flag at index `nmax` changes. The count stays within one of the flags set |
| Flags.FlaggedAfterSet | codebase/superdarn/src.bin/tk/tool/make_fov.1.0/select_alt_groups.c:105-106 | setting a flag raises the number of set flags by one exactly when the flag was clear |
| AltGroups.SeedIndex | codebase/superdarn/src.bin/tk/tool/make_fov.1.0/select_alt_groups.c:152-161 | `argmax[j]` is the `j`-th flagged bin, the one with exactly `j` flags before it, or the zero left by `calloc` when there are fewer than `j + 1` flags |
| AltGroups.SeedCentres | codebase/superdarn/src.bin/tk/tool/make_fov.1.0/select_alt_groups.c:168-185 | one seed centre per component: for each of the flagged bins it is that bin's left edge plus half a bin width, and for each further component up to `nmax` it is the centre of bin 0, read through the zero `calloc` left in `argmax` |
| AltGroups.Accept | codebase/superdarn/src.bin/tk/tool/make_fov.1.0/select_alt_groups.c:196-229 | a component is kept exactly when the seed lies in the 2σ window and in `[vh_min, vh_max]`. A kept bin is the clamped 3σ window, lies within the limits, holds the seed, and carries the amplitude passed in |
| AltGroups.AcceptedWithinLimits | codebase/superdarn/src.bin/tk/tool/make_fov.1.0/select_alt_groups.c:226-229 | every accepted bin lies within `[vh_min, vh_max]` and carries `params[1]` |
| AltGroups.Collect | codebase/superdarn/src.bin/tk/tool/make_fov.1.0/select_alt_groups.c:196-232 | the capacity-checked loop fails exactly when more than `max_vbin` components pass. Otherwise it returns the same bins as the unchecked filter, in component order |
| AltGroups.UniformBins | codebase/superdarn/src.bin/tk/tool/make_fov.1.0/select_alt_groups.c:113-131 | `ceil(span/vh_box)` abutting bins of width `vh_box`. It fails exactly when that number exceeds `max_vbin` |
| AltGroups.UniformCovers | codebase/superdarn/src.bin/tk/tool/make_fov.1.0/select_alt_groups.c:116-128 | the uniform bins start at or below `local_min` and end at or above `local_max` |
| AltGroups.ChainLink | codebase/superdarn/src.bin/tk/tool/make_fov.1.0/select_alt_groups.c:256-258 | the next chained bin starts at the previous end, is at most one box wide, and ends at or below `vh_max` |
| AltGroups.Chain | codebase/superdarn/src.bin/tk/tool/make_fov.1.0/select_alt_groups.c:254-261 | keeps the bins it starts from and links each new bin to the previous one. A bin is added only while the previous end is below `vh_max`. There are at most `j` bins, and fewer only when `vh_max` is reached. A write past `max_vbin` fails |
| AltGroups.ChainFallback | codebase/superdarn/src.bin/tk/tool/make_fov.1.0/select_alt_groups.c:241-262 | with no accepted component: the stale write at line 251 fails when `nbin ≥ max_vbin`, and an empty data range gives NaN bounds. Otherwise there are 1 to `j` abutting bins; the first starts at or above `vh_min`, every bin ends at or below `vh_max`, and there are fewer than `j` only when `vh_max` is reached |
| AltGroups.ChainFrom | codebase/superdarn/src.bin/tk/tool/make_fov.1.0/select_alt_groups.c:249-261 | the chain from a clamped first bin has 1 to `j` abutting bins, starts at or above `vh_min`, ends at or below `vh_max`, and stops early only at `vh_max` |
| AltGroups.Reconcile | codebase/superdarn/src.bin/tk/tool/make_fov.1.0/select_alt_groups.c:263-269 | accepted bins go through the reconciler. The result stays within capacity and its top reaches `local_max` or `vh_max` |
| AltGroups.FromComponents | codebase/superdarn/src.bin/tk/tool/make_fov.1.0/select_alt_groups.c:163-269 | a failed fit leads to the chained fallback. The result stays within capacity and never reports a range error |
| AltGroups.FromComponentsFit | codebase/superdarn/src.bin/tk/tool/make_fov.1.0/select_alt_groups.c:193-269 | after a successful fit, more than `max_vbin` accepted components stop the program, none lead to the chained fallback, and otherwise exactly the accepted bins, in component order, go to the reconciler, whose top then reaches `local_max` or `vh_max` |
| AltGroups.SelectAltGroups | codebase/superdarn/src.bin/tk/tool/make_fov.1.0/select_alt_groups.c:44-290 | the range error occurs exactly when the bin count is not positive. Any result has at most `max_vbin` bins. With no peak, the result is the uniform partition. One bin with a peak reads past the edges. A failed fit gives the chained fallback |
| Flags.FlaggedBefore | codebase/superdarn/src.bin/tk/tool/map_filter.1.8/map_filter.c:119-122 | the `j`-th written record has exactly `j` written records before it |
| MapFilter.DayOrigin | codebase/superdarn/src.bin/tk/tool/map_filter.1.8/map_filter.c:115-118 | the origin is the start of the day of the truncated time, carrying the time's fractional second: it lies a whole number of seconds below the time, and the truncated time minus that difference is a whole number of days. For a non-negative time the origin is at most a day below it, and for a negative one at most a day above it |
| MapFilter.KeepMask | codebase/superdarn/src.bin/tk/tool/map_filter.1.8/map_filter.c:119-122 | every record is written exactly when its time above the origin reaches 600 s times the number written before it |
| MapFilter.KeepMaskUnique | codebase/superdarn/src.bin/tk/tool/map_filter.1.8/map_filter.c:119-122 | that rule fixes the selection: any mask that follows it is the model's |
| MapFilter.Decimate | codebase/superdarn/src.bin/tk/tool/map_filter.1.8/map_filter.c:112-136 | the output is the records the selection rule keeps, unchanged, each once and in input order: the `j`-th output is the input at the `j`-th kept position, and those positions strictly increase |
| MapFilter.DecimateSnoc | codebase/superdarn/src.bin/tk/tool/map_filter.1.8/map_filter.c:119-122 | one more record is appended exactly when it reaches the threshold left by the records before it |
| MapFilter.EmittedAboveThreshold | codebase/superdarn/src.bin/tk/tool/map_filter.1.8/map_filter.c:119-121 | the `j`-th written record lies at least `600·j` s above the origin |
| MapFilter.EarlyFirstRecordDropped | codebase/superdarn/src.bin/tk/tool/map_filter.1.8/map_filter.c:115-120 | a first record 1.5 s before the epoch gets its origin one second after it, at -0.5 s, so nothing is written |
| MapFilter.FirstRecord | codebase/superdarn/src.bin/tk/tool/map_filter.1.8/map_filter.c:115-120 | the first record is written exactly when the truncated remainder is not negative, so always for a non-negative time |
| MapFilter.Filter | codebase/superdarn/src.bin/tk/tool/map_filter.1.8/map_filter.c:113-123 | the loop, with its `c` flag, `dval` and `tval`, writes exactly the decimated records, and ends with threshold `600·written` |
| FieldOfView.Perimeter | codebase/superdarn/src.bin/tk/plot/field_plot.1.12/make_fov.c:67-97 | the walk has `76 + max(0, maxbeam) + 75 + max(0, maxbeam − 1)` points, which is `2·75 + 2·maxbeam` for at least one beam |
| FieldOfView.PerimeterAt | codebase/superdarn/src.bin/tk/plot/field_plot.1.12/make_fov.c:67-97 | the `k`-th point of each of the four legs |
| FieldOfView.PerimeterOnBorder | codebase/superdarn/src.bin/tk/plot/field_plot.1.12/make_fov.c:67-97 | every point lies on the border of `[0, maxbeam] × [0, 75]`, and `Position` maps it back to its index |
| FieldOfView.PerimeterCovers | codebase/superdarn/src.bin/tk/plot/field_plot.1.12/make_fov.c:67-97 | every border point is visited, at its `Position` |
| FieldOfView.PerimeterDistinct | codebase/superdarn/src.bin/tk/plot/field_plot.1.12/make_fov.c:67-97 | no grid point is visited twice |
| FieldOfView.PerimeterSteps | codebase/superdarn/src.bin/tk/plot/field_plot.1.12/make_fov.c:67-97 | consecutive points differ by one step in exactly one coordinate |
| FieldOfView.PerimeterCloses | codebase/superdarn/src.bin/tk/plot/field_plot.1.12/make_fov.c:67-97 | the walk starts at (0, 0) and ends at its neighbour (1, 0), so it is closed |
| FieldOfView.Outlines | codebase/superdarn/src.bin/tk/plot/field_plot.1.12/make_fov.c:59-98 | every outline belongs to an eligible radar: operational, not the excluded station, and with a site. Each outline is its radar's perimeter walk |
| FieldOfView.OutlinesOrdered | codebase/superdarn/src.bin/tk/plot/field_plot.1.12/make_fov.c:59-98 | the outlines follow network order, so no radar has two |
| FieldOfView.OutlinesComplete | codebase/superdarn/src.bin/tk/plot/field_plot.1.12/make_fov.c:59-98 | every eligible radar has an outline |
| FieldOfView.MakeFov | codebase/superdarn/src.bin/tk/plot/field_plot.1.12/make_fov.c:59-98 | exactly one outline per eligible radar, in network order, each its radar's perimeter walk; `OutlinesOrdered` and `OutlinesCompleteAll` carry the proofs |
| FieldOfView.OutlinesCompleteAll | codebase/superdarn/src.bin/tk/plot/field_plot.1.12/make_fov.c:59-98 | every eligible radar of the network has an outline |
| FieldOfView.OutlinesBounded | codebase/superdarn/src.bin/tk/plot/field_plot.1.12/make_fov.c:59-65 | there are no more outlines than radars |
| SourceDefects.AbsoluteMaximumMissed | codebase/superdarn/src.bin/tk/tool/make_fov.1.0/select_alt_groups.c:100-107 | a significant absolute maximum is not added when bin `nmax` is insignificant |
| SourceDefects.WrongBinFlagged | codebase/superdarn/src.bin/tk/tool/make_fov.1.0/select_alt_groups.c:103-106 | bin 0 is flagged in place of the absolute maximum |
| SourceDefects.PeakCountedTwice | codebase/superdarn/src.bin/tk/tool/make_fov.1.0/select_alt_groups.c:103-106 | with bin 1 the only relative maximum and the absolute maximum at bin 4, the count grows to 2 though only one bin is flagged, so the second seed is the zero left by `calloc` |
| SourceDefects.SeedCentreDecides | codebase/superdarn/src.bin/tk/tool/make_fov.1.0/select_alt_groups.c:216 | acceptance follows the seed centre, not the fitted centre |
| SourceDefects.TrimReadsBeforeStart | codebase/superdarn/src.bin/tk/tool/make_fov.1.0/select_alt_groups.c:401-402 | popping can run past the first slot |
| SourceDefects.OverlappingCandidateDropped | codebase/superdarn/src.bin/tk/tool/make_fov.1.0/select_alt_groups.c:397-407 | the trimmed-to candidate leaves no slot of its own |
| SourceDefects.BridgeRewindsWalk | codebase/superdarn/src.bin/tk/tool/make_fov.1.0/select_alt_groups.c:426-434 | bridging sends the walk back to an earlier position |
| SourceDefects.NoConflictOverlaps | codebase/superdarn/src.bin/tk/tool/make_fov.1.0/select_alt_groups.c:437-448 | the no-conflict branch can leave two overlapping slots |
| SourceDefects.CycleNeverEnds | codebase/superdarn/src.bin/tk/tool/make_fov.1.0/select_alt_groups.c:375-468 | a walk whose iterations alternate between two states runs out of any fuel |
| SourceDefects.BridgeStep | codebase/superdarn/src.bin/tk/tool/make_fov.1.0/select_alt_groups.c:409-434 | from the loop state, the candidate a box and a half above the list is bridged and the counter rewound to 2 |
| SourceDefects.TrimStep | codebase/superdarn/src.bin/tk/tool/make_fov.1.0/select_alt_groups.c:383-407 | the next candidate overlaps the bridge, whose priority number exceeds the candidate's index, so the bridge is trimmed away and the walk is back in the loop state |
| SourceDefects.MergeLoopNeverEnds | codebase/superdarn/src.bin/tk/tool/make_fov.1.0/select_alt_groups.c:375-468 | on four candidates the merge loop cycles between a bridge and a trim, so the reconciler fails for every fuel bound |
| SourceDefects.EmptyWalkReadsBeforeStart | codebase/superdarn/src.bin/tk/tool/make_fov.1.0/select_alt_groups.c:470-473 | a zero-width candidate at the data's lower edge leaves the list empty, so the upper range reads before the first slot |

## Defects kept as written

The model follows the code on each of these points and does not correct
it. The `SourceDefects` lemmas give concrete inputs for them.

- **Peak augmentation uses the wrong index.** Lines 103-105 test
  `hist_bins[nmax]` and set `ismax[nmax]` instead of using the
  absolute-maximum index. See `AbsoluteMaximumMissed`, `WrongBinFlagged`
  and `PeakCountedTwice`.
- **One-bin histograms read past the edges.** Line 168 reads
  `hist_edges[1]` even when `nbin == 1`. This is the `ReadsSecondEdge`
  outcome of `AltGroups.SelectAltGroups`.
- **The seed centre decides acceptance.** Line 216 tests the seed centre,
  not the fitted one. See `SeedCentreDecides`.
- **Every bin gets the first amplitude.** Line 229 stores `params[1]` for
  every bin. See `AltGroups.AcceptedWithinLimits`.
- **The fallback writes with a stale index.** Line 251 writes
  `vh_peaks[i]` with `i` left at `nbin`. This is the `StalePeakWrite`
  outcome of `AltGroups.ChainFallback`.
- **An empty data range gives NaN bounds.** The chained fallback divides
  by `j = 0` when the data range is empty. This is the `NaNBounds`
  outcome.
- **Popping reads before the first slot.** Line 401 reads
  `new_mins[inew-1]` before testing `inew > 0`. See
  `TrimReadsBeforeStart`.
- **Trimming drops the candidate.** The trimming branch never adds the
  candidate. See `OverlappingCandidateDropped`.
- **The bridge rewinds the walk.** The bridge loop reuses the outer counter
  `i`, so the walk resumes at `vnum + 1` and the bridged candidate is never
  added. See `BridgeRewindsWalk`. Because of this rewind the walk may not
  terminate: `MergeLoopNeverEnds` gives four candidates on which a bridge
  and a trim alternate for ever.
- **A narrow gap drops the candidate.** When the gap to the next
  candidate is under one box, lines 416-421 only move the last slot's end
  up to the candidate's lower bound; the candidate itself is never added.
  This is the narrow-gap case of `Boundaries.CloseGap`.
- **The no-conflict branch can overlap.** It can add a slot that starts
  below the previous slot's end. See `NoConflictOverlaps`. No global
  non-overlap property is claimed.
- **The upper range can read before the first slot.** Line 471 reads
  `new_maxs[-1]` when the walk produced nothing. See
  `EmptyWalkReadsBeforeStart`.
- **Two loops have no capacity check.** The gap-bridge loop and the
  upper-filler loop can write past `max_vbin`. These are the
  `GapFillerOverflow` and `UpperFillerOverflow` outcomes.
- **The fallback chain has no capacity check.** The loop at line 254 can
  write past `max_vbin`. This is the `FallbackOverflow` outcome.

## Left out

- The least-squares fit (`mpfit`, `mult_gaussian_dev` and the solver
  settings, lines 134-191) is not modelled. Its status and parameter
  vector are an input of any value.
- `AltGroups.SelectAltGroups` does not model that the solver is told to
  vary only 3 parameters (line 191). The whole parameter vector is left
  arbitrary.
- The statistics primitives (`histogram`, `int_argrelmax`,
  `int_argabsmax`, `float_absmin`, `float_absmax`) live in files outside
  this model. Their results are a `Stats` input constrained by
  `AltGroups.StatsFor`. The model takes the `nmax` that
  `int_argrelmax` returns to be the number of flags it sets, so
  `AltGroups.AugmentPeaks` counts the flags instead of taking `nmax` as input.
- `smart_argsort_float` is outside this model too. A stable insertion
  argsort (`Sorting.ArgSort`) stands in for it.
- `Boundaries.SortExpand` accepts any ordering that sorts the lower bounds.
- The values in `valmax` (allocated with `malloc` at line 152), and the
  initial amplitudes and widths in `params`, only feed the solver, so they
  are not modelled. The zero entries of `argmax`, which `calloc` clears,
  are modelled by `AltGroups.SeedIndex`.
- The peak heights written to `vh_peaks` by the uniform and chained
  fallbacks are freed unread (line 283), so they are not modelled.
- Memory management (`malloc`, `calloc`, `free`) is not modelled. The
  caller's arrays are taken to hold `max_vbin` entries.
- Option parsing, file opening and the map readers and writers
  (`map_filter.c` lines 57-110 and 137) are not modelled.
- The old-format and new-format loops of `map_filter` differ only in the
  reader and writer they call, so both are `MapFilter.Filter`.
- `RPosGeo`, `TimeEpochToYMDHMS`, `RadarYMDHMSGetSite` and the polygon
  container in `make_fov` are not modelled. A radar's site lookup is an
  input, and outline points are grid cells rather than latitude and
  longitude.
- `Boundaries.WalkFrom`: the source loop need not terminate after a
  bridge, so the walk takes a `fuel` bound and reports `OutOfFuel` when it
  runs out. Behaviour beyond the bound is not modelled; `MergeLoopNeverEnds`
  shows a walk that no bound finishes.
- `AltGroups.HistBinCount`, `MapFilter.DayOrigin`: integers are
  unbounded. An `(int)` cast of a value outside the 32-bit range, which is
  undefined in C, is not modelled. For `map_filter` this covers start
  times past 2038.
- Single-precision rounding is not modelled. `float` and `double` are
  exact reals.
- `AltGroups.SelectAltGroups`, `Boundaries.SortExpand`: the model requires
  `vh_box > 0`, and `SortExpand` requires at most `max_vbin` candidates,
  which `select_alt_groups` guarantees. A zero box width, where line 77
  divides by zero, is not modelled. Neither is a negative one, which makes
  the quotient at line 77 negative whenever `vh_max > vh_min`, so that the
  program stops with the range error.
- `Boundaries.SortExpand`: no claim of global coverage or non-overlap,
  because the defects above break both. Only the top-reach property and
  the priority discipline are proved.
- `AltGroups.UniformCovers`: coverage is proved for the uniform partition
  only, not for the chained fallback, whose first bin is clamped at
  `vh_min`.

=== FILE: alt_types.dfy ===
/** Types shared by the estimator (`select_alt_groups`) and the reconciler
    (`sort_expand_boundaries`). */
module AltTypes {

  /** One altitude bin: lower and upper virtual height (km) and the
      representative peak value carried beside them. */
  datatype Bin = Bin(lo: real, hi: real, peak: real)

  /** The interval part of a bin: what the caller reads back from
      `vh_mins` / `vh_maxs`. */
  datatype Interval = Interval(lo: real, hi: real)

  /** A non-empty list of bins whose top reaches the upper end of the data
      or the altitude cap. */
  predicate ReachesTop(bins: seq<Interval>, localMax: real, vhMax: real)
  {
    |bins| > 0 && (localMax <= bins[|bins| - 1].hi || vhMax <= bins[|bins| - 1].hi)
  }

  /** Places where the C code reads or writes outside an array, or produces
      NaN bounds. The model stops there instead of guessing a value. */
  datatype Fault =
    | ReadsSecondEdge       // hist_edges[1] read with a single histogram bin
    | StalePeakWrite        // vh_peaks[i] written with a stale i past max_vbin
    | FallbackOverflow      // fit-failure fallback writes past max_vbin
    | PopsPastStart         // new_mins[inew - 1] read with inew == 0 while trimming
    | GapFillerOverflow     // gap bridging writes past max_vbin
    | ReadsBeforeStart      // new_maxs[inew - 1] read with nothing output
    | UpperFillerOverflow   // upper filler writes past max_vbin
    | NaNBounds             // fit-failure fallback divides 0 by 0

  /** One variant per `exit(1)` of the source, plus the undefined cases and
      the fuel bound of the reconciler walk. */
  datatype Error =
    | RangeTooSmall(nbin: int)      // histogram bin count <= 0
    | UniformTooManyBins(n: int)    // no-peak partition needs more than max_vbin bins
    | FitTooManyBins                // accepted components exceed max_vbin
    | LowerFillerTooManyBins        // lower-range fillers reach max_vbin
    | MergeTooManyBins              // merge pass reaches max_vbin
    | Undefined(fault: Fault)
    | OutOfFuel

  datatype Result<T> = Ok(value: T) | Err(error: Error)

  /** The errors `sort_expand_boundaries` can end in. */
  predicate ReconcilerError(e: Error)
  {
    e.LowerFillerTooManyBins? || e.MergeTooManyBins? || e.Undefined? || e.OutOfFuel?
  }

  datatype Option<T> = None | Some(value: T)
}

=== FILE: argsort.dfy ===
/** The ordering the reconciler needs from `smart_argsort_float`: a
    permutation of the candidate indices that lists the candidates by
    ascending lower bound. The library routine is not part of this model; a
    stable insertion sort stands in for it. */
module Sorting {

  predicate InRange(order: seq<nat>, n: nat)
  {
    forall i :: 0 <= i < |order| ==> order[i] < n
  }

  predicate SortedBy(order: seq<nat>, keys: seq<real>)
    requires InRange(order, |keys|)
  {
    forall i, j :: 0 <= i < j < |order| ==> keys[order[i]] <= keys[order[j]]
  }

  /** The indices `0 .. n-1` in increasing order. */
  function Indices(n: nat): (r: seq<nat>)
    ensures |r| == n
    ensures forall i :: 0 <= i < n ==> r[i] == i
  {
    seq(n, i requires 0 <= i => i)
  }

  /** `order` lists every index of `keys` exactly once, by ascending key. */
  predicate IsArgSort(order: seq<nat>, keys: seq<real>)
  {
    && |order| == |keys|
    && multiset(order) == multiset(Indices(|keys|))
    && InRange(order, |keys|)
    && SortedBy(order, keys)
  }

  /** Places index `k` after the leading entries whose key does not exceed
      its own. */
  function Insert(s: seq<nat>, k: nat, keys: seq<real>): (r: seq<nat>)
    ensures |r| == |s| + 1
    ensures multiset(r) == multiset(s) + multiset{k}
  {
    if |s| == 0 || !(s[0] < |keys| && k < |keys| && keys[s[0]] <= keys[k]) then [k] + s
    else
      assert s == [s[0]] + s[1..];
      [s[0]] + Insert(s[1..], k, keys)
  }

  lemma InsertInRange(s: seq<nat>, k: nat, keys: seq<real>)
    requires k < |keys| && InRange(s, |keys|)
    ensures InRange(Insert(s, k, keys), |keys|)
  {
    var r := Insert(s, k, keys);
    forall i | 0 <= i < |r| ensures r[i] < |keys| {
      assert r[i] in multiset(r);
      if r[i] != k {
        assert r[i] in multiset(s);
        assert r[i] in s;
      }
    }
  }

  lemma {:induction false} InsertSorted(s: seq<nat>, k: nat, keys: seq<real>)
    requires k < |keys| && InRange(s, |keys|) && SortedBy(s, keys)
    ensures InRange(Insert(s, k, keys), |keys|)
    ensures SortedBy(Insert(s, k, keys), keys)
  {
    InsertInRange(s, k, keys);
    var r := Insert(s, k, keys);
    if |s| == 0 || !(keys[s[0]] <= keys[k]) {
      assert r == [k] + s;
      forall j | 0 <= j < |s| ensures keys[k] <= keys[s[j]] {
        if j > 0 { assert keys[s[0]] <= keys[s[j]]; }
      }
    } else {
      var tail := Insert(s[1..], k, keys);
      assert r == [s[0]] + tail;
      InsertSorted(s[1..], k, keys);
      HeadBelowInsert(s, k, keys);
      forall i, j | 0 <= i < j < |r| ensures keys[r[i]] <= keys[r[j]] {
        if i == 0 {
          assert r[j] == tail[j - 1];
        } else {
          assert r[i] == tail[i - 1] && r[j] == tail[j - 1];
        }
      }
    }
  }

  lemma HeadBelowInsert(s: seq<nat>, k: nat, keys: seq<real>)
    requires k < |keys| && InRange(s, |keys|) && SortedBy(s, keys)
    requires |s| > 0 && keys[s[0]] <= keys[k]
    ensures InRange(Insert(s[1..], k, keys), |keys|)
    ensures forall j :: 0 <= j < |s| ==> keys[s[0]] <= keys[Insert(s[1..], k, keys)[j]]
  {
    var tail := Insert(s[1..], k, keys);
    InsertInRange(s[1..], k, keys);
    forall j | 0 <= j < |tail| ensures keys[s[0]] <= keys[tail[j]] {
      assert tail[j] in multiset(tail);
      if tail[j] != k {
        assert tail[j] in multiset(s[1..]);
        var m :| 0 <= m < |s[1..]| && s[1..][m] == tail[j];
        assert s[m + 1] == tail[j];
      }
    }
  }

  /** One step of the sort: inserting index `n-1` into a sorted
      arrangement of the indices below it sorts the indices below `n`. */
  lemma InsertNext(keys: seq<real>, s: seq<nat>, n: nat)
    requires 0 < n <= |keys|
    requires multiset(s) == multiset(Indices(n - 1))
    requires InRange(s, |keys|) && SortedBy(s, keys)
    ensures multiset(Insert(s, n - 1, keys)) == multiset(Indices(n))
    ensures InRange(Insert(s, n - 1, keys), |keys|) && SortedBy(Insert(s, n - 1, keys), keys)
  {
    InsertSorted(s, n - 1, keys);
    assert Indices(n) == Indices(n - 1) + [n - 1];
  }

  /** The indices `0 .. n-1`, sorted by key. */
  function SortPrefix(keys: seq<real>, n: nat): (r: seq<nat>)
    requires n <= |keys|
    ensures multiset(r) == multiset(Indices(n))
    ensures InRange(r, |keys|) && SortedBy(r, keys)
  {
    if n == 0 then []
    else
      var s := SortPrefix(keys, n - 1);
      InsertNext(keys, s, n);
      Insert(s, n - 1, keys)
  }

  function ArgSort(keys: seq<real>): (r: seq<nat>)
    ensures IsArgSort(r, keys)
  {
    var r := SortPrefix(keys, |keys|);
    assert |r| == |keys| by {
      assert |multiset(r)| == |multiset(Indices(|keys|))|;
    }
    r
  }
}

=== FILE: defects.dfy ===
/** Concrete inputs on which the source, modelled as written, departs from
    what its comments and names describe. Each lemma exhibits one such
    input; the behaviour itself is the one the model of each operation
    states for all inputs. */
module SourceDefects {
  import opened Numerics
  import opened AltTypes
  import opened Flags
  import Sorting
  import opened Boundaries
  import opened AltGroups

  /** select_alt_groups.c lines 103-105 test and flag the bin at index
      `nmax`, not the absolute maximum: with no relative maximum, a
      significant absolute maximum at bin 1 is not added, because bin 0 is
      the one examined. */
  lemma AbsoluteMaximumMissed()
    ensures var pk := AugmentPeaks([0, 5, 5], [false, false, false], 1, 2);
      pk.nmax == 0 && !pk.isMax[1]
  {
    var flags := [false, false, false];
    assert Flagged(flags) == [] by {
      assert flags[..2][..1][..0] == [];
    }
  }

  /** The same lines flag bin 0 when its count happens to be significant,
      though the absolute maximum is bin 2. */
  lemma WrongBinFlagged()
    ensures var pk := AugmentPeaks([2, 0, 9], [false, false, false], 2, 2);
      pk.nmax == 1 && pk.isMax[0] && !pk.isMax[2]
  {
    var flags := [false, false, false];
    assert Flagged(flags) == [] by {
      assert flags[..2][..1][..0] == [];
    }
  }

  /** When bin `nmax` is already a relative maximum the count still grows,
      so one component is seeded from the zero-filled `argmax` entry. Here
      bin 1 is the only relative maximum found, the absolute maximum is bin
      4, and bin `nmax` = 1 is significant. */
  lemma PeakCountedTwice()
    ensures var pk := AugmentPeaks([0, 4, 0, 0, 9, 9], [false, true, false, false, false, false], 4, 2);
      && pk.nmax == 2 && |Flagged(pk.isMax)| == 1
      && SeedIndex(pk, 1) == 0
  {
    var flags := [false, true, false, false, false, false];
    OnlySecondFlagged(flags);
    assert flags[1 := true] == flags;
  }

  /** A mask with bin 1 as its only set flag selects bin 1 alone. */
  lemma {:induction false} OnlySecondFlagged(flags: seq<bool>)
    requires |flags| >= 2 && flags[1]
    requires forall k :: 0 <= k < |flags| && k != 1 ==> !flags[k]
    ensures Flagged(flags) == [1]
  {
    var n := |flags| - 1;
    if n == 1 {
      assert flags[..1][..0] == [];
      assert Flagged(flags[..1]) == [];
    } else {
      OnlySecondFlagged(flags[..n]);
    }
  }

  /** Line 216 tests the seed centre, not the fitted one: a component fitted
      at 150 km with width 5 km is accepted because its seed, 152 km, lies
      in the window, and one fitted at 150 km is rejected because its seed,
      100 km, does not, though both fitted windows lie inside the limits. */
  lemma SeedCentreDecides()
    ensures Accept(Config(0.0, 400.0, 30.0, 1, 10), 152.0, 1.0, 150.0, 5.0).Some?
    ensures Accept(Config(0.0, 400.0, 30.0, 1, 10), 100.0, 1.0, 150.0, 5.0).None?
  {
  }

  /** Lines 401-406 pop slots without testing `inew > 0`: a candidate below
      the only slot, of the same or lower priority, reads before the first
      entry. */
  lemma TrimReadsBeforeStart()
    ensures ResolveOverlap([Slot(5.0, 10.0, 7.0, 1)], Bin(3.0, 12.0, 8.0), 0, 2)
      == Err(Undefined(PopsPastStart))
  {
  }

  /** Lines 397-407 trim the list back to an overlapping candidate and
      then drop the candidate: no slot covers 8 to 20 km afterwards. */
  lemma OverlappingCandidateDropped()
    ensures ResolveOverlap([Slot(0.0, 10.0, 5.0, 1)], Bin(8.0, 20.0, 15.0), 0, 2)
      == Ok([Slot(0.0, 8.0, 5.0, 1)])
  {
    var out := [Slot(0.0, 10.0, 5.0, 1)];
    assert TrimTo(out, 8.0) == Ok(out[0 := out[0].(hi := 8.0)]);
    assert out[0 := out[0].(hi := 8.0)] == [Slot(0.0, 8.0, 5.0, 1)];
    assert ResolveOverlap(out, Bin(8.0, 20.0, 15.0), 0, 2) == TrimTo(out, 8.0);
  }

  /** Lines 426-434 bridge a wide gap with the outer loop counter: a
      candidate at sorted position 5 sends the walk back to position 4. */
  lemma BridgeRewindsWalk()
    ensures var r := CloseGap([Slot(0.0, 10.0, 5.0, 0)], Bin(40.0, 50.0, 45.0), 5,
                              Limits(0.0, 60.0, 0.0, 100.0, 10.0, 20), 6);
      r.Ok? && r.value.next == 4 && |r.value.out| == 4
  {
    assert Floor((40.0 - 10.0) / 10.0) == 3;
  }

  /** Lines 437-448 copy a candidate that starts below the end of the last
      slot when neither overlap test fires: the two slots overlap. */
  lemma NoConflictOverlaps()
    ensures var w := Place([Bin(0.0, 10.0, 5.0), Bin(8.0, 20.0, 15.0)], [0, 1],
                           Limits(0.0, 20.0, 0.0, 100.0, 10.0, 10),
                           Walk(1, [Slot(0.0, 10.0, 5.0, 0)]));
      && w.Ok? && |w.value.out| == 2
      && w.value.out[1].lo < w.value.out[0].hi
  {
    var c := Bin(8.0, 20.0, 15.0);
    assert !Overlaps(Slot(0.0, 10.0, 5.0, 0), c);
    assert Ceil(20.0) == 20;
  }

  /** Lines 471-473 read the slot before the first when no candidate had
      positive width: a single empty candidate at the lower edge of the
      data leaves the list empty. */
  lemma EmptyWalkReadsBeforeStart()
    ensures SortExpand([Bin(5.0, 5.0, 5.0)], [0], Limits(5.0, 20.0, 0.0, 100.0, 10.0, 10), 3)
      == Err(Undefined(ReadsBeforeStart))
  {
    var bins := [Bin(5.0, 5.0, 5.0)];
    assert multiset([0]) == multiset(Sorting.Indices(1)) by {
      assert Sorting.Indices(1) == [0];
    }
    assert Sorting.IsArgSort([0], Los(bins));
    var p := Limits(5.0, 20.0, 0.0, 100.0, 10.0, 10);
    assert LowGap(bins, [0], p) <= 0.0;
    assert LowerRange(bins, [0], p) == Ok(Start(bins, []));
    assert WalkFrom(bins, [0], p, Walk(1, []), 2) == Ok([]);
  }

  /** Candidates and limits for the walk that never ends: sorted by lower
      bound they are visited in the order 2, 0, 1, 3. */
  function LoopBins(): seq<Bin>
  {
    [Bin(20.0, 30.0, 50.0), Bin(45.0, 48.0, 50.0), Bin(0.0, 5.0, 50.0), Bin(60.0, 80.0, 50.0)]
  }

  function LoopLimits(): Limits
  {
    Limits(0.0, 80.0, 0.0, 100.0, 10.0, 10)
  }

  /** The state the walk keeps returning to: one slot up to 45 km, with
      sorted position 3 next. */
  function LoopState(): Walk
  {
    Walk(3, [Slot(0.0, 45.0, 50.0, 2)])
  }

  /** The list the bridge leaves: the loop state's slot and one bridging
      slot from 45 to 60 km. */
  function Bridged(): Walk
  {
    Walk(2, [Slot(0.0, 45.0, 50.0, 2), Slot(45.0, 60.0, 52.5, 5)])
  }

  /** The list after the first iteration and after the second. */
  function Opened(): Walk
  {
    Walk(1, [Slot(0.0, 5.0, 50.0, 2)])
  }

  function Trimmed(): Walk
  {
    Walk(2, [Slot(0.0, 20.0, 50.0, 2)])
  }

  /** One iteration of the merge loop takes the walk from `w` to `w'`. */
  predicate Advances(cands: seq<Bin>, order: seq<nat>, p: Limits, w: Walk, w': Walk)
  {
    && Sorting.InRange(order, |cands|) && p.vhBox > 0.0
    && |w.out| < p.maxVbin && w.next < |order|
    && Step(cands, order, p, w) == Ok(w')
  }

  /** One successful iteration with fuel to spare hands the walk on; with
      no fuel left the walk stops short of the end. */
  lemma WalkFromStep(cands: seq<Bin>, order: seq<nat>, p: Limits, w: Walk, w': Walk, fuel: nat)
    requires Advances(cands, order, p, w, w')
    ensures |w'.out| < p.maxVbin
    ensures fuel == 0 ==> WalkFrom(cands, order, p, w, fuel) == Err(OutOfFuel)
    ensures fuel > 0 ==> WalkFrom(cands, order, p, w, fuel) == WalkFrom(cands, order, p, w', fuel - 1)
  {
  }

  /** A walk that comes back to the state `a` after two iterations, on
      the way through `b`, never finishes, whatever the fuel. */
  lemma {:induction false} CycleNeverEnds(cands: seq<Bin>, order: seq<nat>, p: Limits, a: Walk, b: Walk, fuel: nat)
    requires Advances(cands, order, p, a, b) && Advances(cands, order, p, b, a)
    ensures WalkFrom(cands, order, p, a, fuel) == Err(OutOfFuel)
    decreases fuel
  {
    WalkFromStep(cands, order, p, a, b, fuel);
    if fuel >= 1 {
      WalkFromStep(cands, order, p, b, a, fuel - 1);
      if fuel >= 2 {
        CycleNeverEnds(cands, order, p, a, b, fuel - 2);
        assert WalkFrom(cands, order, p, a, fuel) == WalkFrom(cands, order, p, a, fuel - 2);
      }
    }
  }

  /** From the loop state the candidate at 60 km lies a box and a half
      above the list, so it is bridged (lines 426-434) and the counter is
      rewound to 2. */
  lemma BridgeStep()
    ensures Advances(LoopBins(), [2, 0, 1, 3], LoopLimits(), LoopState(), Bridged())
  {
    var out := LoopState().out;
    assert Floor(15.0 / 10.0) == 1;
    assert Ceil(45.0 + 15.0) == 60;
    assert out + [Slot(45.0, 60.0, 52.5, 5)] == Bridged().out;
    assert Bridge(Bridged().out, 15.0, 0, 4) == Bridged().out;
    assert Bridge(out, 15.0, 1, 4) == Bridged().out;
    assert CloseGap(out, Bin(60.0, 80.0, 50.0), 3, LoopLimits(), 4) == Ok(Bridged());
  }

  /** The candidate at 45 km then trims the bridge away (lines 401-406) and
      the counter is 3 again. */
  lemma TrimStep()
    ensures Advances(LoopBins(), [2, 0, 1, 3], LoopLimits(), Bridged(), LoopState())
  {
    var out := Bridged().out;
    var kept := out[..1];
    assert kept == LoopState().out;
    assert kept[0 := kept[0].(hi := 45.0)] == kept;
    assert TrimTo(kept, 45.0) == Ok(kept);
    assert TrimTo(out, 45.0) == Ok(kept);
  }

  /** The first iteration: the candidate at 0 km opens the list. */
  lemma OpenStep()
    ensures Advances(LoopBins(), [2, 0, 1, 3], LoopLimits(), Walk(0, []), Opened())
  {
    assert Floor(0.0) == 0 && Ceil(5.0) == 5;
    assert [] + [Slot(0.0, 5.0, 50.0, 2)] == Opened().out;
  }

  /** The second iteration: the candidate at 20 km trims the list back to
      its lower bound (lines 401-406). */
  lemma FirstTrimStep()
    ensures Advances(LoopBins(), [2, 0, 1, 3], LoopLimits(), Opened(), Trimmed())
  {
    var o := Opened().out;
    assert o[0 := o[0].(hi := 20.0)] == Trimmed().out;
    assert TrimTo(o, 20.0) == Ok(Trimmed().out);
  }

  /** The third iteration: the candidate at 45 km trims it again, and the
      walk is in the loop state. */
  lemma SecondTrimStep()
    ensures Advances(LoopBins(), [2, 0, 1, 3], LoopLimits(), Trimmed(), LoopState())
  {
    var o := Trimmed().out;
    assert o[0 := o[0].(hi := 45.0)] == LoopState().out;
    assert TrimTo(o, 45.0) == Ok(LoopState().out);
  }

  /** No fuel bound lets the walk from `w` finish. */
  ghost predicate NeverEnds(cands: seq<Bin>, order: seq<nat>, p: Limits, w: Walk)
    requires Sorting.InRange(order, |cands|) && p.vhBox > 0.0 && |w.out| < p.maxVbin
  {
    forall fuel: nat :: WalkFrom(cands, order, p, w, fuel) == Err(OutOfFuel)
  }

  /** A walk alternating between two states never finishes. */
  lemma CycleForever(cands: seq<Bin>, order: seq<nat>, p: Limits, a: Walk, b: Walk)
    requires Advances(cands, order, p, a, b) && Advances(cands, order, p, b, a)
    ensures NeverEnds(cands, order, p, a)
  {
    forall fuel: nat ensures WalkFrom(cands, order, p, a, fuel) == Err(OutOfFuel) {
      CycleNeverEnds(cands, order, p, a, b, fuel);
    }
  }

  /** A walk one iteration before one that never finishes does not finish
      either. */
  lemma StepForever(cands: seq<Bin>, order: seq<nat>, p: Limits, w: Walk, w': Walk)
    requires Advances(cands, order, p, w, w') && |w'.out| < p.maxVbin
    requires NeverEnds(cands, order, p, w')
    ensures NeverEnds(cands, order, p, w)
  {
    forall fuel: nat ensures WalkFrom(cands, order, p, w, fuel) == Err(OutOfFuel) {
      WalkFromStep(cands, order, p, w, w', fuel);
      if fuel >= 1 {
        assert WalkFrom(cands, order, p, w', fuel - 1) == Err(OutOfFuel);
      }
    }
  }

  /** From the empty list no amount of fuel finishes the walk: three
      iterations reach the loop state, and from there it alternates with
      the bridged list for ever. */
  lemma WalkNeverEnds()
    ensures NeverEnds(LoopBins(), [2, 0, 1, 3], LoopLimits(), Walk(0, []))
  {
    var b, o, p := LoopBins(), [2, 0, 1, 3], LoopLimits();
    BridgeStep();
    TrimStep();
    CycleForever(b, o, p, LoopState(), Bridged());
    SecondTrimStep();
    StepForever(b, o, p, Trimmed(), LoopState());
    FirstTrimStep();
    StepForever(b, o, p, Opened(), Trimmed());
    OpenStep();
    StepForever(b, o, p, Walk(0, []), Opened());
  }

  /** The visiting order 2, 0, 1, 3 is the sort of the lower bounds. */
  lemma LoopOrderSorted()
    ensures Sorting.IsArgSort([2, 0, 1, 3], Los(LoopBins()))
  {
    LoopKeys();
    LoopOrderPermutes();
    assert Sorting.SortedBy([2, 0, 1, 3], [20.0, 45.0, 0.0, 60.0]);
  }

  lemma LoopKeys()
    ensures Los(LoopBins()) == [20.0, 45.0, 0.0, 60.0]
  {
  }

  lemma LoopOrderPermutes()
    ensures multiset([2, 0, 1, 3]) == multiset(Sorting.Indices(4))
  {
    assert Sorting.Indices(4) == [0, 1, 2, 3];
  }

  /** Lines 375-468 need not terminate: on these four candidates the merge
      loop cycles for ever, so the reconciler fails for every fuel bound. */
  lemma MergeLoopNeverEnds(fuel: nat)
    ensures Sorting.IsArgSort([2, 0, 1, 3], Los(LoopBins()))
    ensures SortExpand(LoopBins(), [2, 0, 1, 3], LoopLimits(), fuel) == Err(OutOfFuel)
  {
    LoopOrderSorted();
    assert LowGap(LoopBins(), [2, 0, 1, 3], LoopLimits()) <= 0.0;
    assert LowerRange(LoopBins(), [2, 0, 1, 3], LoopLimits()) == Ok(Start(LoopBins(), []));
    WalkNeverEnds();
    assert WalkFrom(LoopBins(), [2, 0, 1, 3], LoopLimits(), Walk(0, []), fuel) == Err(OutOfFuel);
  }
}

=== FILE: flags.dfy ===
/** Boolean masks and the positions they select, shared by the peak
    bookkeeping of the estimator and the record selection of the map
    decimator. */
module Flags {
  /** The indices of the set flags, in increasing order. */
  function Flagged(flags: seq<bool>): (r: seq<nat>)
    ensures |r| <= |flags|
    ensures forall k :: 0 <= k < |r| ==> r[k] < |flags| && flags[r[k]]
    ensures forall i :: 0 <= i < |flags| && !flags[i] ==> |r| < |flags|
  {
    if |flags| == 0 then []
    else
      var n := |flags| - 1;
      var front := Flagged(flags[..n]);
      assert forall k :: 0 <= k < |front| ==> front[k] < n && flags[front[k]];
      front + (if flags[n] then [n] else [])
  }

  /** The positions are listed in increasing order, and every set flag is
      listed. */
  lemma {:induction false} FlaggedOrdered(flags: seq<bool>)
    ensures forall k, m :: 0 <= k < m < |Flagged(flags)| ==> Flagged(flags)[k] < Flagged(flags)[m]
    ensures forall i :: 0 <= i < |flags| && flags[i] ==> i in Flagged(flags)
    decreases |flags|
  {
    if |flags| > 0 {
      var n := |flags| - 1;
      FlaggedOrdered(flags[..n]);
      assert Flagged(flags) == Flagged(flags[..n]) + (if flags[n] then [n] else []);
    }
  }

  /** Setting one more flag adds one to the count when it was clear. */
  lemma {:induction false} FlaggedAfterSet(flags: seq<bool>, i: nat)
    requires i < |flags|
    ensures |Flagged(flags[i := true])| == |Flagged(flags)| + (if flags[i] then 0 else 1)
    decreases |flags|
  {
    var n := |flags| - 1;
    var marked := flags[i := true];
    assert Flagged(marked) == Flagged(marked[..n]) + (if marked[n] then [n] else []);
    assert Flagged(flags) == Flagged(flags[..n]) + (if flags[n] then [n] else []);
    if i < n {
      assert marked[..n] == flags[..n][i := true];
      FlaggedAfterSet(flags[..n], i);
    } else {
      assert marked[..n] == flags[..n];
    }
  }

  /** The `j`-th set flag has exactly `j` set flags before it. */
  lemma {:induction false} FlaggedBefore(flags: seq<bool>, j: nat)
    requires j < |Flagged(flags)|
    ensures Flagged(flags)[j] < |flags|
    ensures |Flagged(flags[..Flagged(flags)[j]])| == j
    decreases |flags|
  {
    var n := |flags| - 1;
    var front := flags[..n];
    assert Flagged(flags) == Flagged(front) + (if flags[n] then [n] else []);
    if j < |Flagged(front)| {
      var k := Flagged(front)[j];
      assert flags[..k] == front[..k];
      FlaggedBefore(front, j);
    } else {
      assert flags[..n] == front;
    }
  }

  /** Appending one flag appends its position when it is set. */
  lemma FlaggedSnoc(flags: seq<bool>, b: bool)
    ensures Flagged(flags + [b]) == Flagged(flags) + (if b then [|flags|] else [])
  {
    assert (flags + [b])[..|flags|] == flags;
  }

  /** The number of set flags. */
  function Count(flags: seq<bool>): (n: nat)
  {
    if |flags| == 0 then 0
    else Count(flags[..|flags| - 1]) + (if flags[|flags| - 1] then 1 else 0)
  }

  /** `Count` is the number of positions `Flagged` lists. */
  lemma {:induction false} CountFlagged(flags: seq<bool>)
    ensures Count(flags) == |Flagged(flags)|
    decreases |flags|
  {
    if |flags| > 0 {
      CountFlagged(flags[..|flags| - 1]);
    }
  }
}

=== FILE: make_fov.dfy ===
/** The field-of-view outline of `make_fov`: one closed polygon per
    eligible radar, walking the border of its (beam, range) grid. The
    geographic position of each grid point is not part of this model; a
    polygon is the sequence of grid points it visits, in order. */
module FieldOfView {
  /** `maxrange = 75` (make_fov.c line 53). */
  const MaxRange: int := 75

  /** A grid point: beam number and range gate. */
  datatype Cell = Cell(beam: int, range: int)

  /** The hardware site a radar has at the requested time, if any. */
  datatype SiteLookup = NoSite | SiteAt(maxBeam: int)

  /** A radar of the network: its status, station id, and the outcome of
      the site lookup for the requested time. */
  datatype Radar = Radar(status: int, id: int, site: SiteLookup)

  /** One outline: the network index of the radar it belongs to and the
      grid points it visits. */
  datatype Outline = Outline(radar: nat, points: seq<Cell>)

  function Max0(n: int): (r: nat)
    ensures r == n || (n < 0 && r == 0)
  {
    if n < 0 then 0 else n
  }

  /** Lines 67-97: beam 0 outwards over ranges 0..75, range 75 across beams
      1..maxbeam, beam maxbeam inwards over ranges 74..0, and range 0 back
      across beams maxbeam-1..1. */
  function Perimeter(mb: int): (r: seq<Cell>)
    ensures |r| == MaxRange + 1 + Max0(mb) + MaxRange + Max0(mb - 1)
    ensures mb >= 1 ==> |r| == 2 * MaxRange + 2 * mb
  {
    seq(MaxRange + 1, rn requires 0 <= rn => Cell(0, rn))
    + seq(Max0(mb), k requires 0 <= k => Cell(k + 1, MaxRange))
    + seq(MaxRange, k requires 0 <= k => Cell(mb, MaxRange - 1 - k))
    + seq(Max0(mb - 1), k requires 0 <= k => Cell(mb - 1 - k, 0))
  }

  /** The `k`-th point of the walk, leg by leg. */
  lemma PerimeterAt(mb: int, k: nat)
    requires mb >= 1 && k < |Perimeter(mb)|
    ensures k <= MaxRange ==> Perimeter(mb)[k] == Cell(0, k)
    ensures MaxRange < k <= MaxRange + mb ==> Perimeter(mb)[k] == Cell(k - MaxRange, MaxRange)
    ensures MaxRange + mb < k <= 2 * MaxRange + mb ==> Perimeter(mb)[k] == Cell(mb, 2 * MaxRange + mb - k)
    ensures 2 * MaxRange + mb < k ==> Perimeter(mb)[k] == Cell(2 * MaxRange + 2 * mb - k, 0)
  {
  }

  /** A point on the border of the grid `[0, mb] x [0, 75]`. */
  predicate OnBorder(c: Cell, mb: int)
  {
    && 0 <= c.beam <= mb && 0 <= c.range <= MaxRange
    && (c.beam == 0 || c.beam == mb || c.range == 0 || c.range == MaxRange)
  }

  /** Neighbouring grid points: one step in exactly one coordinate. */
  predicate Adjacent(a: Cell, b: Cell)
  {
    (a.beam == b.beam && (a.range - b.range == 1 || b.range - a.range == 1))
    || (a.range == b.range && (a.beam - b.beam == 1 || b.beam - a.beam == 1))
  }

  /** Where the walk visits a border point: the inverse of the walk. */
  function Position(c: Cell, mb: int): (k: nat)
    requires mb >= 1 && OnBorder(c, mb)
    ensures k < 2 * MaxRange + 2 * mb
  {
    if c.beam == 0 then c.range
    else if c.range == MaxRange then MaxRange + c.beam
    else if c.beam == mb then 2 * MaxRange + mb - c.range
    else 2 * MaxRange + 2 * mb - c.beam
  }

  /** Every point of the walk lies on the border, and `Position` finds it
      where it was visited; so no point is visited twice. */
  lemma PerimeterOnBorder(mb: int, k: nat)
    requires mb >= 1 && k < |Perimeter(mb)|
    ensures OnBorder(Perimeter(mb)[k], mb)
    ensures Position(Perimeter(mb)[k], mb) == k
  {
    PerimeterAt(mb, k);
  }

  /** Every border point is visited, at its `Position`. */
  lemma PerimeterCovers(mb: int, c: Cell)
    requires mb >= 1 && OnBorder(c, mb)
    ensures Position(c, mb) < |Perimeter(mb)|
    ensures Perimeter(mb)[Position(c, mb)] == c
  {
    PerimeterAt(mb, Position(c, mb));
  }

  /** No grid point repeats along the walk. */
  lemma PerimeterDistinct(mb: int, i: nat, j: nat)
    requires mb >= 1 && i < j < |Perimeter(mb)|
    ensures Perimeter(mb)[i] != Perimeter(mb)[j]
  {
    PerimeterOnBorder(mb, i);
    PerimeterOnBorder(mb, j);
  }

  /** Consecutive points are neighbours. */
  lemma PerimeterSteps(mb: int, k: nat)
    requires mb >= 1 && k + 1 < |Perimeter(mb)|
    ensures Adjacent(Perimeter(mb)[k], Perimeter(mb)[k + 1])
  {
    PerimeterAt(mb, k);
    PerimeterAt(mb, k + 1);
  }

  /** The last point `(1, 0)` is a neighbour of the first `(0, 0)`: the
      outline is closed. */
  lemma PerimeterCloses(mb: int)
    requires mb >= 1
    ensures var r := Perimeter(mb);
      r[|r| - 1] == Cell(1, 0) && r[0] == Cell(0, 0) && Adjacent(r[|r| - 1], r[0])
  {
    PerimeterAt(mb, 0);
    PerimeterAt(mb, |Perimeter(mb)| - 1);
  }

  /** Lines 61-64: a radar gets an outline when it is operational, is not
      the excluded station, and has a site at the requested time. */
  predicate Eligible(r: Radar, id: int)
  {
    r.status == 1 && r.id != id && r.site.SiteAt?
  }

  /** Lines 59-98 over the first `n` radars of the network. */
  function Outlines(radars: seq<Radar>, id: int, n: nat): (r: seq<Outline>)
    requires n <= |radars|
    ensures forall k :: 0 <= k < |r| ==>
      && r[k].radar < n && Eligible(radars[r[k].radar], id)
      && r[k].points == Perimeter(radars[r[k].radar].site.maxBeam)
  {
    if n == 0 then []
    else
      var front := Outlines(radars, id, n - 1);
      var last := radars[n - 1];
      if Eligible(last, id) then front + [Outline(n - 1, Perimeter(last.site.maxBeam))]
      else front
  }

  /** The outlines follow network order, one per radar at most. */
  lemma {:induction false} OutlinesOrdered(radars: seq<Radar>, id: int, n: nat)
    requires n <= |radars|
    ensures forall k, m :: 0 <= k < m < |Outlines(radars, id, n)| ==>
      Outlines(radars, id, n)[k].radar < Outlines(radars, id, n)[m].radar
  {
    if n > 0 {
      OutlinesOrdered(radars, id, n - 1);
      var front := Outlines(radars, id, n - 1);
      var r := Outlines(radars, id, n);
      if Eligible(radars[n - 1], id) {
        assert r == front + [Outline(n - 1, Perimeter(radars[n - 1].site.maxBeam))];
        forall k, m | 0 <= k < m < |r| ensures r[k].radar < r[m].radar {
          assert r[k] == front[k] && front[k].radar < n - 1;
          if m < |front| {
            assert r[m] == front[m] && front[k].radar < front[m].radar;
          } else {
            assert r[m].radar == n - 1;
          }
        }
      } else {
        assert r == front;
      }
    }
  }

  /** Some outline belongs to radar `i`. */
  predicate HasOutline(outs: seq<Outline>, i: nat)
  {
    exists k :: 0 <= k < |outs| && outs[k].radar == i
  }

  /** Every eligible radar among the first `n` has an outline. */
  lemma {:induction false} OutlinesComplete(radars: seq<Radar>, id: int, n: nat, i: nat)
    requires i < n <= |radars| && Eligible(radars[i], id)
    ensures HasOutline(Outlines(radars, id, n), i)
  {
    var front := Outlines(radars, id, n - 1);
    var r := Outlines(radars, id, n);
    if i < n - 1 {
      OutlinesComplete(radars, id, n - 1, i);
      var k :| 0 <= k < |front| && front[k].radar == i;
      assert r[k] == front[k];
    } else {
      assert r[|front|].radar == i;
    }
  }

  /** Every eligible radar of the network has an outline. */
  lemma OutlinesCompleteAll(radars: seq<Radar>, id: int)
    ensures forall i: nat :: i < |radars| && Eligible(radars[i], id) ==>
      HasOutline(Outlines(radars, id, |radars|), i)
  {
    forall i: nat | i < |radars| && Eligible(radars[i], id)
      ensures HasOutline(Outlines(radars, id, |radars|), i)
    {
      OutlinesComplete(radars, id, |radars|, i);
    }
  }

  /** `make_fov`: exactly one outline per eligible radar, in network
      order, each the closed walk round its own grid. */
  function MakeFov(radars: seq<Radar>, id: int): (r: seq<Outline>)
    ensures |r| <= |radars|
    ensures forall k :: 0 <= k < |r| ==>
      && r[k].radar < |radars| && Eligible(radars[r[k].radar], id)
      && r[k].points == Perimeter(radars[r[k].radar].site.maxBeam)
    ensures forall k, m :: 0 <= k < m < |r| ==> r[k].radar < r[m].radar
    ensures forall i: nat :: i < |radars| && Eligible(radars[i], id) ==> HasOutline(r, i)
  {
    OutlinesBounded(radars, id, |radars|);
    OutlinesOrdered(radars, id, |radars|);
    OutlinesCompleteAll(radars, id);
    Outlines(radars, id, |radars|)
  }

  lemma {:induction false} OutlinesBounded(radars: seq<Radar>, id: int, n: nat)
    requires n <= |radars|
    ensures |Outlines(radars, id, n)| <= n
  {
    if n > 0 {
      OutlinesBounded(radars, id, n - 1);
    }
  }
}

=== FILE: map_filter.dfy ===
/** The record selection of `map_filter`: convection-map records are
    passed through when their start time, measured from a day origin fixed
    by the first record, has reached a threshold that advances by the skip
    interval with every record written. Reading and writing the records
    (old or new format) are not part of this model; a record is its start
    time and an opaque body. */
module MapFilter {
  import opened Numerics
  import opened Flags

  /** `skip = 10*60` seconds (map_filter.c line 49). */
  const Skip: real := 600.0

  /** `24*3600` (lines 116 and 128). */
  const SecondsPerDay: int := 86400

  /** The threshold after `n` records have been written, `n` skips above
      the origin (lines 61 and 121). */
  function Threshold(n: nat): (t: real)
    ensures t >= 0.0
  {
    n as real * Skip
  }

  datatype MapRecord<P> = MapRecord(stTime: real, body: P)

  /** Lines 116 and 128: `st_time - ((int) st_time % 86400)`, the start of
      the day of the truncated time plus the time's fractional second. The
      cast and the remainder round toward zero, so a negative time yields
      an origin above it. */
  function DayOrigin(t: real): (d: real)
    ensures 0.0 <= t ==> d <= t < d + SecondsPerDay as real
    ensures t < 0.0 ==> t <= d < t + SecondsPerDay as real
    ensures 0.0 <= t ==> 0.0 <= d
    ensures var g := t - d; g.Floor as real == g && (Trunc(t) - g.Floor) % SecondsPerDay == 0
  {
    var rem := CRem(Trunc(t), SecondsPerDay);
    WholeDays(Trunc(t));
    assert t - (t - rem as real) == rem as real;
    t - rem as real
  }

  /** Taking C's remainder by a day off a whole number of seconds leaves a
      whole number of days. */
  lemma WholeDays(a: int)
    ensures (a - CRem(a, SecondsPerDay)) % SecondsPerDay == 0
  {
  }

  function Times<P>(recs: seq<MapRecord<P>>): (r: seq<real>)
    ensures |r| == |recs|
    ensures forall k :: 0 <= k < |recs| ==> r[k] == recs[k].stTime
  {
    seq(|recs|, k requires 0 <= k < |recs| => recs[k].stTime)
  }

  /** The selection rule of lines 119-122: record `k` is written exactly
      when its time above the origin reaches `600 n`, where `n` is the
      number of records written before it. */
  predicate Follows(times: seq<real>, dval: real, keep: seq<bool>)
  {
    && |keep| == |times|
    && forall k {:trigger times[k]} :: 0 <= k < |times| ==>
         (keep[k] <==> times[k] - dval >= Threshold(Count(keep[..k])))
  }

  /** The mask of written records, decided record by record. */
  function KeepMask(times: seq<real>, dval: real): (keep: seq<bool>)
    ensures Follows(times, dval, keep)
  {
    if |times| == 0 then []
    else
      var n := |times| - 1;
      var front := KeepMask(times[..n], dval);
      var keep := front + [times[n] - dval >= Threshold(Count(front))];
      assert forall k :: 0 <= k < n ==> keep[..k] == front[..k];
      assert keep[..n] == front;
      keep
  }

  /** The rule determines the mask: no other mask follows it. */
  lemma {:induction false} KeepMaskUnique(times: seq<real>, dval: real, keep: seq<bool>)
    requires Follows(times, dval, keep)
    ensures keep == KeepMask(times, dval)
    decreases |times|
  {
    if |times| > 0 {
      var n := |times| - 1;
      FollowsFront(times, dval, keep);
      KeepMaskUnique(times[..n], dval, keep[..n]);
      FollowsLast(times, dval, keep);
    }
  }

  /** A mask that follows the rule ends with the rule's verdict on the
      last record. */
  lemma FollowsLast(times: seq<real>, dval: real, keep: seq<bool>)
    requires Follows(times, dval, keep) && |times| > 0
    ensures var n := |times| - 1;
      keep == keep[..n] + [times[n] - dval >= Threshold(Count(keep[..n]))]
  {
  }

  /** A mask that follows the rule does so on every prefix. */
  lemma FollowsFront(times: seq<real>, dval: real, keep: seq<bool>)
    requires Follows(times, dval, keep) && |times| > 0
    ensures Follows(times[..|times| - 1], dval, keep[..|times| - 1])
  {
    var n := |times| - 1;
    var front := keep[..n];
    forall k | 0 <= k < n
      ensures front[k] <==> times[..n][k] - dval >= Threshold(Count(front[..k]))
    {
      assert front[..k] == keep[..k];
    }
  }

  /** The records a mask selects, in input order. */
  function Select<P>(recs: seq<MapRecord<P>>, keep: seq<bool>): (r: seq<MapRecord<P>>)
    requires |keep| == |recs|
    ensures |r| == |Flagged(keep)|
    ensures forall j :: 0 <= j < |r| ==> r[j] == recs[Flagged(keep)[j]]
  {
    var f := Flagged(keep);
    seq(|f|, j requires 0 <= j < |f| => recs[f[j]])
  }

  /** Lines 112-136: the records written, for either file format. They
      are the records the selection rule keeps (`Follows`, which fixes the
      mask by `KeepMaskUnique`), each once and in the order read. */
  function Decimate<P>(recs: seq<MapRecord<P>>): (r: seq<MapRecord<P>>)
    ensures |r| <= |recs|
    ensures |recs| == 0 ==> r == []
    ensures |recs| > 0 ==>
      |r| == |Flagged(KeepMask(Times(recs), DayOrigin(recs[0].stTime)))|
    ensures |recs| > 0 ==> forall j :: 0 <= j < |r| ==>
      r[j] == recs[Flagged(KeepMask(Times(recs), DayOrigin(recs[0].stTime)))[j]]
    ensures |recs| > 0 ==> forall j, k :: 0 <= j < k < |r| ==>
      Flagged(KeepMask(Times(recs), DayOrigin(recs[0].stTime)))[j]
        < Flagged(KeepMask(Times(recs), DayOrigin(recs[0].stTime)))[k]
  {
    if |recs| == 0 then []
    else
      var keep := KeepMask(Times(recs), DayOrigin(recs[0].stTime));
      FlaggedOrdered(keep);
      Select(recs, keep)
  }

  /** The `j`-th record written lies at least `600 j` seconds above the
      day origin: the threshold after `j` writes is `600 j`. */
  lemma EmittedAboveThreshold<P>(recs: seq<MapRecord<P>>)
    requires |recs| > 0
    ensures forall j :: 0 <= j < |Decimate(recs)| ==>
      Decimate(recs)[j].stTime - DayOrigin(recs[0].stTime) >= Threshold(j)
  {
    var keep := KeepMask(Times(recs), DayOrigin(recs[0].stTime));
    forall j | 0 <= j < |Decimate(recs)|
      ensures Decimate(recs)[j].stTime - DayOrigin(recs[0].stTime) >= Threshold(j)
    {
      FlaggedBefore(keep, j);
      CountFlagged(keep[..Flagged(keep)[j]]);
    }
  }

  /** Lines 115-120 on the first record: it is written exactly when the
      truncated remainder is not negative, so always when its time is not
      negative. */
  lemma FirstRecord<P>(recs: seq<MapRecord<P>>)
    requires |recs| > 0
    ensures var t := recs[0].stTime;
      KeepMask(Times(recs), DayOrigin(t))[0] <==> 0 <= CRem(Trunc(t), SecondsPerDay)
    ensures 0.0 <= recs[0].stTime ==> |Decimate(recs)| > 0 && Decimate(recs)[0] == recs[0]
  {
    var keep := KeepMask(Times(recs), DayOrigin(recs[0].stTime));
    assert keep[..0] == [];
    FlaggedOrdered(keep);
  }

  /** A first record one and a half seconds before the epoch is dropped:
      its origin lies one second after it, at -0.5 s. */
  lemma EarlyFirstRecordDropped()
    ensures Decimate([MapRecord(-1.5, 0)]) == []
  {
    var recs := [MapRecord(-1.5, 0)];
    assert Trunc(-1.5) == -1;
    assert CRem(-1, SecondsPerDay) == -1;
    var keep := KeepMask(Times(recs), DayOrigin(-1.5));
    assert keep[..0] == [];
    assert !keep[0];
    assert Flagged(keep) == Flagged(keep[..0]) + [];
  }

  /** Reading one more record appends it exactly when it reaches the
      threshold left by the records before it. */
  lemma DecimateSnoc<P>(recs: seq<MapRecord<P>>, i: nat)
    requires i < |recs|
    ensures Decimate(recs[..i + 1]) == Decimate(recs[..i]) +
      (if recs[i].stTime - DayOrigin(recs[0].stTime) >= Threshold(|Decimate(recs[..i])|) then [recs[i]] else [])
  {
    var dval := DayOrigin(recs[0].stTime);
    var keep := KeepMask(Times(recs[..i]), dval);
    var keep' := KeepMask(Times(recs[..i + 1]), dval);
    assert Times(recs[..i + 1])[..i] == Times(recs[..i]);
    assert keep' == keep + [recs[i].stTime - dval >= Threshold(Count(keep))];
    CountFlagged(keep);
    assert recs[..i + 1] == recs[..i] + [recs[i]];
    SelectSnoc(recs[..i], keep, recs[i], keep'[i]);
    assert recs[..i + 1][0] == recs[0];
    assert Decimate(recs[..i + 1]) == Select(recs[..i + 1], keep');
    if i > 0 {
      assert recs[..i][0] == recs[0];
      assert Decimate(recs[..i]) == Select(recs[..i], keep);
    }
  }

  /** Selecting from one more record appends it when its flag is set. */
  lemma SelectSnoc<P>(recs: seq<MapRecord<P>>, keep: seq<bool>, x: MapRecord<P>, b: bool)
    requires |keep| == |recs|
    ensures Select(recs + [x], keep + [b]) == Select(recs, keep) + (if b then [x] else [])
  {
    FlaggedSnoc(keep, b);
  }

  /** One pass of the loop body: the record is written exactly when
      `Decimate` keeps it, and the threshold then moves up by one skip. */
  lemma FilterStep<P>(recs: seq<MapRecord<P>>, i: nat, out: seq<MapRecord<P>>, tval: real)
    requires i < |recs| && out == Decimate(recs[..i]) && tval == Threshold(|out|)
    ensures recs[i].stTime - DayOrigin(recs[0].stTime) >= tval ==>
      out + [recs[i]] == Decimate(recs[..i + 1]) && tval + Skip == Threshold(|out| + 1)
    ensures recs[i].stTime - DayOrigin(recs[0].stTime) < tval ==> out == Decimate(recs[..i + 1])
  {
    DecimateSnoc(recs, i);
  }

  /** The loop of lines 113-123 (or 125-135): the first-record flag `c`,
      the origin `dval` and the threshold `tval` as the source keeps them.
      Returns the records written and the final threshold. */
  method Filter<P>(recs: seq<MapRecord<P>>) returns (out: seq<MapRecord<P>>, tval: real)
    ensures out == Decimate(recs)
    ensures tval == Threshold(|out|)
  {
    tval := 0.0;
    var dval := 0.0;
    var c := 0;
    out := [];
    var i := 0;
    while i < |recs|
      invariant 0 <= i <= |recs|
      invariant c == 0 <==> i == 0
      invariant 0 < i ==> dval == DayOrigin(recs[0].stTime)
      invariant out == Decimate(recs[..i])
      invariant tval == Threshold(|out|)
    {
      if c == 0 {
        dval := DayOrigin(recs[i].stTime);
        c := 1;
      }
      FilterStep(recs, i, out, tval);
      if recs[i].stTime - dval >= tval {
        out := out + [recs[i]];
        tval := tval + Skip;
      }
      i := i + 1;
    }
    assert recs[..i] == recs;
  }
}

=== FILE: numerics.dfy ===
/** Real-number stand-ins for the C library calls and casts the altitude
    binning and the map decimation use: `floor`, `ceil`, the `(int)` cast
    (truncation toward zero) and C's truncating `%`. */
module Numerics {

  /** C `floor`: the greatest integer not above `x`. */
  function Floor(x: real): (r: int)
    ensures r as real <= x < r as real + 1.0
  {
    x.Floor
  }

  /** C `ceil`: the least integer not below `x`. */
  function Ceil(x: real): (r: int)
    ensures r as real - 1.0 < x <= r as real
  {
    -((-x).Floor)
  }

  /** A C `(int)` cast of a floating value: truncation toward zero. */
  function Trunc(x: real): (r: int)
    ensures 0.0 <= x ==> 0 <= r && r as real <= x < r as real + 1.0
    ensures x < 0.0 ==> r <= 0 && x <= r as real < x + 1.0
  {
    if x >= 0.0 then Floor(x) else Ceil(x)
  }

  /** C's `a % b` for a positive divisor: the remainder takes the sign of `a`. */
  function CRem(a: int, b: int): (r: int)
    requires b > 0
    ensures 0 <= a ==> 0 <= r < b
    ensures a < 0 ==> -b < r <= 0
  {
    if a >= 0 then a % b else -((-a) % b)
  }

  lemma CeilOfQuotientBound(span: real, box: real, n: int)
    requires box > 0.0 && span >= 0.0
    requires n == Ceil(span / box)
    ensures n >= 0
    ensures n as real * box >= span
    ensures n > 0 ==> span / n as real <= box
    ensures n == 0 <==> span == 0.0
  {
    assert span / box <= n as real;
    assert n as real * box >= span by {
      assert (span / box) * box == span;
    }
    if n > 0 {
      assert span / n as real <= box by {
        assert (span / n as real) * n as real == span;
      }
    }
  }

  /** How a quotient by a positive box width compares with one. */
  lemma QuotientBounds(a: real, b: real)
    requires b > 0.0
    ensures a < b ==> a / b < 1.0
    ensures b <= a ==> 1.0 <= a / b
    ensures 0.0 <= a ==> 0.0 <= a / b
  {
    var q := a / b;
    assert q * b == a;
    if q >= 1.0 { assert q * b >= 1.0 * b; }
    if q < 1.0 { assert q * b < 1.0 * b; }
    if q < 0.0 { assert q * b < 0.0; }
  }

  /** `n` spans of width `v` laid end to end: `n * v` written as a repeated
      sum, so that proofs about fillers stay linear. */
  function Spans(n: nat, v: real): (r: real)
    ensures v >= 0.0 ==> r >= 0.0
  {
    if n == 0 then 0.0 else Spans(n - 1, v) + v
  }

  lemma {:induction false} SpansIsProduct(n: nat, v: real)
    ensures Spans(n, v) == n as real * v
  {
    if n > 0 {
      SpansIsProduct(n - 1, v);
      assert (n - 1) as real * v + v == n as real * v;
    }
  }

  /** Spans of a narrower width never exceed those of a wider one. */
  lemma {:induction false} SpansMonotone(n: nat, v: real, w: real)
    requires v <= w
    ensures Spans(n, v) <= Spans(n, w)
  {
    if n > 0 {
      SpansMonotone(n - 1, v, w);
    }
  }

  /** Splitting `total` into `n` equal spans and laying them end to end
      gives `total` back. */
  lemma SpansOfEqualParts(total: real, n: nat)
    requires n > 0
    ensures Spans(n, total / n as real) == total
    ensures total > 0.0 ==> total / n as real > 0.0
  {
    SpansIsProduct(n, total / n as real);
  }
}

=== FILE: select_alt_groups.dfy ===
/** The estimator `select_alt_groups`: chooses a histogram size, collects
    the histogram's peaks, and turns the fitted Gaussian components into
    candidate altitude bins, falling back to evenly spaced bins when there
    is no peak or no component is accepted.

    The histogram, the peak finders, the minimum and maximum of the sample
    and the least-squares solver are not part of this model: their results
    arrive as a `Stats` record and a `FitOutcome`. */
module AltGroups {
  import opened Numerics
  import opened AltTypes
  import Boundaries
  import opened Flags

  /** Upper bound on the number of histogram bins (line 78). */
  const MaxHistBins: int := 10

  /** The configuration arguments of `select_alt_groups`. */
  datatype Config = Config(
    vhMin: real,     // lowest allowed virtual height, km
    vhMax: real,     // highest allowed virtual height, km
    vhBox: real,     // nominal bin width, km
    minPnts: int,    // significance threshold for the absolute maximum
    maxVbin: nat)    // capacity of the output arrays

  /** Lines 77-88: `nbin = min(10, (int)((vh_max - vh_min) / (0.25 vh_box)))`,
      and a range that yields no bin is a configuration error. */
  function HistBinCount(c: Config): (r: Result<int>)
    requires c.vhBox > 0.0
    ensures var q := (c.vhMax - c.vhMin) / (c.vhBox * 0.25);
      && (r.Ok? <==> 1.0 <= q)
      && (r.Err? ==> r.error.RangeTooSmall? && r.error.nbin <= 0)
      && (r.Ok? ==> 1 <= r.value <= MaxHistBins)
      && (r.Ok? && r.value < MaxHistBins ==> r.value as real <= q < r.value as real + 1.0)
      && (r.Ok? ==> (r.value == MaxHistBins <==> MaxHistBins as real <= q))
  {
    var n0 := Trunc((c.vhMax - c.vhMin) / (c.vhBox * 0.25));
    var n := if n0 > MaxHistBins then MaxHistBins else n0;
    if n <= 0 then Err(RangeTooSmall(n)) else Ok(n)
  }

  /** What the statistics primitives report: histogram counts and left
      edges (`histogram`), relative-maximum flags (`int_argrelmax`), the
      index of the largest count (`int_argabsmax`), and the smallest and
      largest sample (`float_absmin`, `float_absmax`). */
  datatype Stats = Stats(
    hist: seq<int>,
    edges: seq<real>,
    relMax: seq<bool>,
    absMax: nat,
    localMin: real,
    localMax: real)

  /** The primitives' contracts for a histogram of `nbin` bins over a
      non-empty sample. */
  predicate StatsFor(s: Stats, nbin: int)
  {
    && |s.hist| == nbin && |s.edges| == nbin && |s.relMax| == nbin
    && s.absMax < nbin
    && (forall k :: 0 <= k < nbin ==> s.hist[k] <= s.hist[s.absMax])
    && s.localMin <= s.localMax
  }

  /** The peak flags and the peak count `nmax` after lines 96-107. */
  datatype Peaks = Peaks(isMax: seq<bool>, nmax: nat)

  /** Lines 96-107: `nmax` relative maxima, and one more when the absolute
      maximum is unflagged and significant. As written, the significance
      test reads the count at index `nmax`, and the flag set is the one at
      index `nmax`, not the absolute maximum's. */
  function AugmentPeaks(hist: seq<int>, isMax: seq<bool>, absMax: nat, minPnts: int): (r: Peaks)
    requires |hist| == |isMax| && absMax < |isMax|
    ensures var n := |Flagged(isMax)|;
      && |r.isMax| == |isMax|
      && (r.nmax == n || r.nmax == n + 1)
      && (r.nmax == n + 1 <==> !isMax[absMax] && n < |hist| && minPnts <= hist[n])
      && (forall k :: 0 <= k < |isMax| && k != n ==> r.isMax[k] == isMax[k])
      && (r.nmax == n + 1 ==> r.isMax[n])
    ensures |Flagged(r.isMax)| <= r.nmax <= |Flagged(r.isMax)| + 1
    ensures r.nmax <= |isMax|
  {
    var n := |Flagged(isMax)|;
    if !isMax[absMax] && hist[n] >= minPnts then
      FlaggedAfterSet(isMax, n);
      Peaks(isMax[n := true], n + 1)
    else Peaks(isMax, n)
  }

  /** Lines 152-161: `argmax[j]`, the histogram index seeding component `j`.
      The copy loop stops at the flags it finds; when `nmax` exceeds them
      the remaining entries keep calloc's zero. */
  function SeedIndex(pk: Peaks, j: nat): (i: nat)
    ensures i < |pk.isMax| || i == 0
    ensures j < |Flagged(pk.isMax)| ==> pk.isMax[i] && |Flagged(pk.isMax[..i])| == j
    ensures j >= |Flagged(pk.isMax)| ==> i == 0
  {
    var f := Flagged(pk.isMax);
    if j < |f| then
      FlaggedBefore(pk.isMax, j);
      f[j]
    else 0
  }

  /** Lines 168-176 and 185: the seed centre `x[argmax[j]]` of component
      `j`, a bin's left edge plus half the first bin's width. */
  function SeedCentres(edges: seq<real>, pk: Peaks): (r: seq<real>)
    requires |edges| >= 2 && |pk.isMax| == |edges|
    ensures |r| == pk.nmax
    ensures forall j :: 0 <= j < pk.nmax && j < |Flagged(pk.isMax)| ==>
      r[j] == edges[Flagged(pk.isMax)[j]] + (edges[1] - edges[0]) / 2.0
    ensures forall j :: |Flagged(pk.isMax)| <= j < pk.nmax ==> r[j] == edges[0] + (edges[1] - edges[0]) / 2.0
  {
    var half := (edges[1] - edges[0]) / 2.0;
    seq(pk.nmax, j requires 0 <= j => edges[SeedIndex(pk, j)] + half)
  }

  /** What `mpfit` leaves behind: its status and the parameter vector
      `params[0]`, then amplitude, centre and width of each component. */
  datatype FitOutcome = FitOutcome(status: int, params: seq<real>)

  /** Lines 198-231 for one component: the 3-sigma window clamped to
      `[vh_min, vh_max]`, kept when the seed centre lies inside the clamped
      2-sigma window. The representative value is the amplitude passed in. */
  function Accept(c: Config, seed: real, amp: real, centre: real, sigma: real): (r: Option<Bin>)
    ensures r.Some? <==>
      centre - 2.0 * sigma <= seed <= centre + 2.0 * sigma && c.vhMin <= seed <= c.vhMax
    ensures r.Some? ==> c.vhMin <= r.value.lo && r.value.hi <= c.vhMax && r.value.peak == amp
    ensures r.Some? ==>
      && centre - 3.0 * sigma <= r.value.lo && (r.value.lo == c.vhMin || r.value.lo == centre - 3.0 * sigma)
      && r.value.hi <= centre + 3.0 * sigma && (r.value.hi == c.vhMax || r.value.hi == centre + 3.0 * sigma)
    ensures r.Some? && 0.0 <= sigma ==> r.value.lo <= seed <= r.value.hi
  {
    var vmin0 := centre - 3.0 * sigma;
    var vmin := if vmin0 < c.vhMin then c.vhMin else vmin0;
    var vmax0 := centre + 3.0 * sigma;
    var vmax := if vmax0 > c.vhMax then c.vhMax else vmax0;
    var vlow0 := centre - 2.0 * sigma;
    var vlow := if vlow0 < c.vhMin then c.vhMin else vlow0;
    var vhigh0 := centre + 2.0 * sigma;
    var vhigh := if vhigh0 > c.vhMax then c.vhMax else vhigh0;
    if vlow <= seed <= vhigh then Some(Bin(vmin, vmax, amp)) else None
  }

  /** Component `j`'s test, reading centre and width from the fitted
      vector and `params[1]` as the amplitude for every component. */
  function AcceptAt(c: Config, seeds: seq<real>, params: seq<real>, j: nat): Option<Bin>
    requires |params| == 1 + 3 * |seeds| && j < |seeds|
  {
    Accept(c, seeds[j], params[1], params[2 + 3 * j], params[3 + 3 * j])
  }

  /** The bins components `j ..` would contribute with no capacity limit. */
  function AcceptedFrom(c: Config, seeds: seq<real>, params: seq<real>, j: nat): (r: seq<Bin>)
    requires |params| == 1 + 3 * |seeds| && j <= |seeds|
    decreases |seeds| - j
  {
    if j == |seeds| then []
    else
      match AcceptAt(c, seeds, params, j)
      case Some(b) => [b] + AcceptedFrom(c, seeds, params, j + 1)
      case None => AcceptedFrom(c, seeds, params, j + 1)
  }

  /** Every accepted bin lies inside the global limits and carries the
      first component's amplitude. */
  lemma {:induction false} AcceptedWithinLimits(c: Config, seeds: seq<real>, params: seq<real>, j: nat)
    requires |params| == 1 + 3 * |seeds| && j <= |seeds|
    ensures forall k :: 0 <= k < |AcceptedFrom(c, seeds, params, j)| ==>
      var b := AcceptedFrom(c, seeds, params, j)[k];
      c.vhMin <= b.lo && b.hi <= c.vhMax && b.peak == params[1]
    decreases |seeds| - j
  {
    if j < |seeds| {
      AcceptedWithinLimits(c, seeds, params, j + 1);
    }
  }

  /** Lines 196-232: the acceptance loop with its capacity test before each
      store; it fails exactly when more than `max_vbin` components pass. */
  function Collect(c: Config, seeds: seq<real>, params: seq<real>, j: nat, acc: seq<Bin>): (r: Result<seq<Bin>>)
    requires |params| == 1 + 3 * |seeds| && j <= |seeds|
    requires |acc| <= c.maxVbin
    ensures r.Err? <==> |acc| + |AcceptedFrom(c, seeds, params, j)| > c.maxVbin
    ensures r.Err? ==> r.error == FitTooManyBins
    ensures r.Ok? ==> r.value == acc + AcceptedFrom(c, seeds, params, j)
    decreases |seeds| - j
  {
    if j == |seeds| then Ok(acc)
    else
      match AcceptAt(c, seeds, params, j)
      case None => Collect(c, seeds, params, j + 1, acc)
      case Some(b) =>
        if |acc| >= c.maxVbin then Err(FitTooManyBins)
        else
          var r := Collect(c, seeds, params, j + 1, acc + [b]);
          assert r.Ok? ==> r.value == acc + ([b] + AcceptedFrom(c, seeds, params, j + 1));
          r
  }

  /** Lines 114-131: with no peak, `ceil((local_max - local_min) / vh_box)`
      abutting bins of width `vh_box`, the first starting at
      `span / npeaks + local_min - vh_box`; more than `max_vbin` of them
      is an error. */
  function UniformBins(c: Config, localMin: real, localMax: real): (r: Result<seq<Interval>>)
    requires c.vhBox > 0.0 && localMin <= localMax
    ensures var n := Ceil((localMax - localMin) / c.vhBox);
      && (r.Err? <==> n > c.maxVbin)
      && (r.Err? ==> r.error == UniformTooManyBins(n))
      && (r.Ok? ==> |r.value| == n && n <= c.maxVbin)
    ensures r.Ok? ==> forall k :: 0 <= k < |r.value| ==> r.value[k].hi == r.value[k].lo + c.vhBox
    ensures r.Ok? ==> forall k :: 0 <= k < |r.value| - 1 ==> r.value[k + 1].lo == r.value[k].hi
  {
    var span := localMax - localMin;
    var n := Ceil(span / c.vhBox);
    CeilOfQuotientBound(span, c.vhBox, n);
    if n > c.maxVbin then Err(UniformTooManyBins(n))
    else if n == 0 then Ok([])
    else
      var vmin := span / n as real + localMin - c.vhBox;
      var r := seq(n, i requires 0 <= i < n => UniformBin(vmin, i, c.vhBox));
      assert forall k :: 0 <= k < n - 1 ==> r[k + 1].lo == r[k].hi by {
        forall k | 0 <= k < n - 1 ensures r[k + 1].lo == r[k].hi {
          SpansIsProduct(k, c.vhBox);
          SpansIsProduct(k + 1, c.vhBox);
        }
      }
      Ok(r)
  }

  /** Bin `i` of the uniform partition (lines 127-128). */
  function UniformBin(vmin: real, i: nat, box: real): (b: Interval)
    ensures b.hi == b.lo + box
  {
    Interval(vmin + i as real * box, vmin + i as real * box + box)
  }

  /** The uniform partition covers the observed range: it starts at or
      below `local_min` and ends at or above `local_max`. */
  lemma UniformCovers(c: Config, localMin: real, localMax: real)
    requires c.vhBox > 0.0 && localMin <= localMax
    requires UniformBins(c, localMin, localMax).Ok?
    ensures var bins := UniformBins(c, localMin, localMax).value;
      |bins| > 0 ==> bins[0].lo <= localMin && localMax <= bins[|bins| - 1].hi
  {
    var span := localMax - localMin;
    var n := Ceil(span / c.vhBox);
    CeilOfQuotientBound(span, c.vhBox, n);
    if n > 0 {
      var bins := UniformBins(c, localMin, localMax).value;
      var w := span / n as real;
      var vmin := w + localMin - c.vhBox;
      assert bins[0] == UniformBin(vmin, 0, c.vhBox);
      assert bins[n - 1] == UniformBin(vmin, n - 1, c.vhBox);
      SpansIsProduct(n - 1, c.vhBox);
      SpansIsProduct(n - 1, w);
      SpansOfEqualParts(span, n);
      SpansMonotone(n - 1, w, c.vhBox);
      assert Spans(n, w) == Spans(n - 1, w) + w;
    }
  }

  /** Lines 254-260: further bins, each starting at the previous upper
      bound and one box wide, capped at `vh_max`; generation stops after
      `j` bins or once the previous upper bound reaches `vh_max`. The loop
      has no capacity test. */
  function Chain(acc: seq<Interval>, c: Config, j: int): (r: Result<seq<Interval>>)
    requires |acc| > 0
    ensures r.Err? ==> r.error == Undefined(FallbackOverflow)
    ensures r.Ok? ==> |acc| <= |r.value| && r.value[..|acc|] == acc
    ensures r.Ok? ==> forall k :: |acc| <= k < |r.value| ==> ChainLink(r.value[k - 1], c) == r.value[k]
    ensures r.Ok? ==> forall k :: |acc| <= k + 1 < |r.value| ==> r.value[k].hi < c.vhMax
    ensures r.Ok? && |acc| <= j ==> |r.value| <= j
    ensures r.Ok? && |r.value| < j ==> c.vhMax <= r.value[|r.value| - 1].hi
    ensures r.Ok? && |acc| <= c.maxVbin ==> |r.value| <= c.maxVbin
    decreases j - |acc|
  {
    var last := acc[|acc| - 1];
    if |acc| < j && last.hi < c.vhMax then
      if |acc| >= c.maxVbin then Err(Undefined(FallbackOverflow))
      else
        var next := acc + [ChainLink(last, c)];
        var r := Chain(next, c, j);
        assert r.Ok? ==> r.value[..|acc|] == next[..|acc|];
        r
    else Ok(acc)
  }

  /** Lines 256-258: the bin after `prev`. */
  function ChainLink(prev: Interval, c: Config): (b: Interval)
    ensures b.lo == prev.hi && b.hi <= c.vhMax && b.hi <= b.lo + c.vhBox
    ensures b.hi == c.vhMax || b.hi == b.lo + c.vhBox
  {
    var hi := if prev.hi + c.vhBox > c.vhMax then c.vhMax else prev.hi + c.vhBox;
    Interval(prev.hi, hi)
  }

  /** Lines 241-262: when no component is accepted, a chain of bins from
      `span / j + local_min - vh_box` (clamped to `[vh_min, vh_max]`) with
      `j = ceil(span / vh_box)`. As written, line 251 stores into
      `vh_peaks[i]` with `i` left at `nbin` by the loop on line 171. */
  function ChainFallback(c: Config, localMin: real, localMax: real, nbin: int): (r: Result<seq<Interval>>)
    requires c.vhBox > 0.0 && localMin <= localMax
    ensures c.maxVbin == 0 ==> r == Err(Undefined(FallbackOverflow))
    ensures 0 < c.maxVbin <= nbin ==> r == Err(Undefined(StalePeakWrite))
    ensures 0 <= nbin < c.maxVbin && localMin == localMax ==> r == Err(Undefined(NaNBounds))
    ensures r.Ok? ==>
      var bins := r.value;
      && 1 <= |bins| <= c.maxVbin
      && |bins| <= Ceil((localMax - localMin) / c.vhBox)
      && c.vhMin <= bins[0].lo
      && (forall k :: 0 <= k < |bins| ==> bins[k].hi <= c.vhMax)
      && (forall k :: 0 < k < |bins| ==> bins[k].lo == bins[k - 1].hi)
      && (|bins| < Ceil((localMax - localMin) / c.vhBox) ==> c.vhMax <= bins[|bins| - 1].hi)
  {
    var span := localMax - localMin;
    var j := Ceil(span / c.vhBox);
    CeilOfQuotientBound(span, c.vhBox, j);
    if c.maxVbin == 0 then Err(Undefined(FallbackOverflow))
    else if nbin >= c.maxVbin then Err(Undefined(StalePeakWrite))
    else if j == 0 then Err(Undefined(NaNBounds))
    else ChainFrom(c, span / j as real + localMin - c.vhBox, j)
  }

  /** Lines 249-260 for `j >= 1`: the first bin at `lo0` (clamped to
      `[vh_min, vh_max]`), then the chain. */
  function ChainFrom(c: Config, lo0: real, j: int): (r: Result<seq<Interval>>)
    requires c.vhBox > 0.0 && 1 <= j && 0 < c.maxVbin
    ensures r.Err? ==> r.error == Undefined(FallbackOverflow)
    ensures r.Ok? ==>
      var bins := r.value;
      && 1 <= |bins| <= c.maxVbin
      && |bins| <= j
      && c.vhMin <= bins[0].lo
      && (forall k :: 0 <= k < |bins| ==> bins[k].hi <= c.vhMax)
      && (forall k :: 0 < k < |bins| ==> bins[k].lo == bins[k - 1].hi)
      && (|bins| < j ==> c.vhMax <= bins[|bins| - 1].hi)
  {
    var lo := if lo0 < c.vhMin then c.vhMin else lo0;
    var hi0 := lo + c.vhBox;
    var hi := if hi0 > c.vhMax then c.vhMax else hi0;
    var first := [Interval(lo, hi)];
    var r := Chain(first, c, j);
    if r.Err? then r
    else
      var bins := r.value;
      assert bins[0] == bins[..1][0] == Interval(lo, hi);
      forall k | 0 < k < |bins| ensures bins[k].hi <= c.vhMax && bins[k].lo == bins[k - 1].hi {
        assert ChainLink(bins[k - 1], c) == bins[k];
      }
      r
  }

  /** The peak set the estimator works with. */
  function PeakSet(c: Config, s: Stats): Peaks
    requires c.vhBox > 0.0 && HistBinCount(c).Ok? && StatsFor(s, HistBinCount(c).value)
  {
    AugmentPeaks(s.hist, s.relMax, s.absMax, c.minPnts)
  }

  /** The inputs the estimator needs: primitives consistent with the
      histogram size, and a parameter vector of `3 nmax + 1` entries. */
  predicate Consistent(c: Config, s: Stats, fit: FitOutcome)
    requires c.vhBox > 0.0
  {
    HistBinCount(c).Ok? ==>
      && StatsFor(s, HistBinCount(c).value)
      && |fit.params| == 1 + 3 * PeakSet(c, s).nmax
  }

  /** Lines 163-262 once the peak set is non-empty and the histogram has
      two bins: the seeds, the acceptance loop when the fit succeeded, and
      then either the reconciler or the chained fallback. */
  function FromComponents(c: Config, s: Stats, fit: FitOutcome, pk: Peaks, nbin: int, fuel: nat): (r: Result<seq<Interval>>)
    requires c.vhBox > 0.0 && StatsFor(s, nbin) && nbin >= 2
    requires |pk.isMax| == nbin && |fit.params| == 1 + 3 * pk.nmax
    ensures r.Err? ==> !r.error.RangeTooSmall?
    ensures r.Ok? ==> |r.value| <= c.maxVbin
    ensures fit.status <= 1 ==> r == ChainFallback(c, s.localMin, s.localMax, nbin)
  {
    var seeds := SeedCentres(s.edges, pk);
    var accepted := if fit.status > 1 then Collect(c, seeds, fit.params, 0, []) else Ok([]);
    match accepted
    case Err(e) => Err(e)
    case Ok(bins) =>
      if |bins| == 0 then ChainFallback(c, s.localMin, s.localMax, nbin)
      else Reconcile(c, s, bins, fuel)
  }

  /** The successful-fit path of lines 163-262: too many accepted bins stop
      the program (line 205), none fall back to the chained bins (lines
      240-262), and otherwise exactly the accepted bins, in seed order,
      reach the reconciler, whose last bin then reaches the top. */
  lemma FromComponentsFit(c: Config, s: Stats, fit: FitOutcome, pk: Peaks, nbin: int, fuel: nat)
    requires c.vhBox > 0.0 && StatsFor(s, nbin) && nbin >= 2
    requires |pk.isMax| == nbin && |fit.params| == 1 + 3 * pk.nmax
    ensures fit.status > 1 ==>
      var kept := AcceptedFrom(c, SeedCentres(s.edges, pk), fit.params, 0);
      var r := FromComponents(c, s, fit, pk, nbin, fuel);
      && (|kept| > c.maxVbin ==> r == Err(FitTooManyBins))
      && (|kept| == 0 ==> r == ChainFallback(c, s.localMin, s.localMax, nbin))
      && (0 < |kept| <= c.maxVbin ==> r == Reconcile(c, s, kept, fuel))
      && (0 < |kept| && r.Ok? ==> ReachesTop(r.value, s.localMax, c.vhMax))
  {
    if fit.status > 1 {
      var seeds := SeedCentres(s.edges, pk);
      var a := Collect(c, seeds, fit.params, 0, []);
      assert a.Ok? ==> a.value == AcceptedFrom(c, seeds, fit.params, 0);
    }
  }

  /** Line 235: the accepted bins handed to `sort_expand_boundaries`. */
  function Reconcile(c: Config, s: Stats, bins: seq<Bin>, fuel: nat): (r: Result<seq<Interval>>)
    requires c.vhBox > 0.0 && |bins| <= c.maxVbin
    ensures r.Err? ==> ReconcilerError(r.error)
    ensures r.Ok? ==> |r.value| <= c.maxVbin
    ensures r.Ok? && |bins| > 0 ==> ReachesTop(r.value, s.localMax, c.vhMax)
  {
    Boundaries.Reconciled(bins, Boundaries.Limits(s.localMin, s.localMax, c.vhMin, c.vhMax, c.vhBox, c.maxVbin), fuel)
  }

  /** `select_alt_groups`: the altitude bins written to `vh_mins` /
      `vh_maxs`, or the error that stops the program. `fuel` bounds the
      reconciler's merge loop. */
  function SelectAltGroups(c: Config, s: Stats, fit: FitOutcome, fuel: nat): (r: Result<seq<Interval>>)
    requires c.vhBox > 0.0 && Consistent(c, s, fit)
    ensures HistBinCount(c).Err? <==> r.Err? && r.error.RangeTooSmall?
    ensures r.Ok? ==> |r.value| <= c.maxVbin
    ensures HistBinCount(c).Ok? && PeakSet(c, s).nmax == 0 ==>
      r == UniformBins(c, s.localMin, s.localMax)
    ensures HistBinCount(c).Ok? && PeakSet(c, s).nmax == 0 ==>
      var n := Ceil((s.localMax - s.localMin) / c.vhBox);
      && (r.Ok? <==> n <= c.maxVbin)
      && (r.Ok? ==> |r.value| == n)
    ensures HistBinCount(c).Ok? && PeakSet(c, s).nmax > 0 && HistBinCount(c).value == 1 ==>
      r == Err(Undefined(ReadsSecondEdge))
    ensures HistBinCount(c).Ok? && PeakSet(c, s).nmax > 0 && HistBinCount(c).value > 1 && fit.status <= 1 ==>
      r == ChainFallback(c, s.localMin, s.localMax, HistBinCount(c).value)
  {
    match HistBinCount(c)
    case Err(e) => Err(e)
    case Ok(nbin) =>
      var pk := PeakSet(c, s);
      if pk.nmax == 0 then UniformBins(c, s.localMin, s.localMax)
      else if nbin == 1 then Err(Undefined(ReadsSecondEdge))
      else FromComponents(c, s, fit, pk, nbin, fuel)
  }
}

=== FILE: sort_expand.dfy ===
/** The boundary reconciler `sort_expand_boundaries`: sorts the candidate
    bins by lower bound, pads the range below them, walks them in order
    resolving overlaps by priority and bridging gaps, pads the range above
    them, and returns the working list that is copied back to the caller.

    The working arrays `new_mins`, `new_maxs`, `new_peaks` and `priority`
    are one sequence of `Slot`s whose length is the counter `inew`; their
    capacity is `max_vbin`, and a write past it is undefined in the C. */
module Boundaries {
  import opened Numerics
  import opened AltTypes
  import opened Sorting

  /** One entry of the working arrays. */
  datatype Slot = Slot(lo: real, hi: real, peak: real, prio: int)

  /** The scalar arguments of `sort_expand_boundaries`. */
  datatype Limits = Limits(
    localMin: real,   // smallest observed virtual height
    localMax: real,   // largest observed virtual height
    vhMin: real,      // global lower limit
    vhMax: real,      // global upper limit
    vhBox: real,      // nominal bin width
    maxVbin: nat)     // capacity of every bin array

  function Last(out: seq<Slot>): Slot
    requires |out| > 0
  {
    out[|out| - 1]
  }

  /** The last slot reaches the upper end of the data or the altitude cap. */
  predicate TopReached(out: seq<Slot>, p: Limits)
  {
    |out| > 0 && (p.localMax <= Last(out).hi || p.vhMax <= Last(out).hi)
  }

  function Los(bins: seq<Bin>): (r: seq<real>)
    ensures |r| == |bins|
    ensures forall k :: 0 <= k < |bins| ==> r[k] == bins[k].lo
  {
    seq(|bins|, k requires 0 <= k < |bins| => bins[k].lo)
  }

  /** Slot `s` was copied from candidate `b`: the candidate had positive
      width, the slot keeps its peak, and its lower bound is the candidate's,
      possibly floored. Its upper bound may have been moved since. */
  predicate CopiedFrom(s: Slot, b: Bin)
  {
    && b.lo < b.hi
    && s.peak == b.peak
    && (s.lo == b.lo || s.lo == Floor(b.lo) as real)
  }

  /** The priority discipline: a slot copied from a candidate carries that
      candidate's original index, below the candidate count; every slot the
      reconciler synthesises carries its own position plus the count. */
  predicate PrioritySound(out: seq<Slot>, cands: seq<Bin>)
  {
    forall k :: 0 <= k < |out| ==>
      || out[k].prio == k + |cands|
      || (0 <= out[k].prio < |cands| && CopiedFrom(out[k], cands[out[k].prio]))
  }

  /** Appending a slot that obeys the discipline at its position keeps the
      list sound. */
  lemma PrioritySoundSnoc(out: seq<Slot>, s: Slot, cands: seq<Bin>)
    requires s.prio == |out| + |cands| || (0 <= s.prio < |cands| && CopiedFrom(s, cands[s.prio]))
    ensures PrioritySound(out, cands) ==> PrioritySound(out + [s], cands)
  {
    if PrioritySound(out, cands) {
      var r := out + [s];
      forall k | 0 <= k < |r|
        ensures r[k].prio == k + |cands| || (0 <= r[k].prio < |cands| && CopiedFrom(r[k], cands[r[k].prio]))
      {
        if k < |out| { assert r[k] == out[k]; }
      }
    }
  }

  /** Moving upper bounds, or dropping trailing slots, keeps the list
      sound: the discipline looks only at lower bounds, peaks and
      priorities. */
  lemma PrioritySoundRelabel(out: seq<Slot>, r: seq<Slot>, cands: seq<Bin>)
    requires |r| <= |out|
    requires forall k :: 0 <= k < |r| ==> r[k].lo == out[k].lo && r[k].prio == out[k].prio && r[k].peak == out[k].peak
    ensures PrioritySound(out, cands) ==> PrioritySound(r, cands)
  {
  }

  /** Appending synthesised slots, each carrying its position plus the
      candidate count, keeps the list sound. */
  lemma PrioritySoundExtend(out: seq<Slot>, r: seq<Slot>, cands: seq<Bin>)
    requires |out| <= |r| && r[..|out|] == out
    requires forall k :: |out| <= k < |r| ==> r[k].prio == k + |cands|
    ensures PrioritySound(out, cands) ==> PrioritySound(r, cands)
  {
    if PrioritySound(out, cands) {
      forall k | 0 <= k < |r|
        ensures r[k].prio == k + |cands| || (0 <= r[k].prio < |cands| && CopiedFrom(r[k], cands[r[k].prio]))
      {
        if k < |out| { assert r[k] == r[..|out|][k]; }
      }
    }
  }

  /* ---------------------------------------------------------------------
     Below the lowest candidate (lines 333-372)
     --------------------------------------------------------------------- */

  /** The `k`-th lower-range filler: its lower bound is `localMin + k*vspan`
      floored, its upper bound the next one ceiled. */
  function LowerFiller(localMin: real, vspan: real, k: nat, num: nat): (s: Slot)
    requires vspan > 0.0
    ensures s.lo <= localMin + Spans(k, vspan)
    ensures localMin + Spans(k + 1, vspan) <= s.hi
    ensures s.prio == k + num
  {
    var h0 := localMin + k as real * vspan;
    SpansIsProduct(k, vspan);
    var h := if h0 < localMin then localMin else h0;
    Slot(Floor(h) as real, Ceil(h + vspan) as real, h + 0.5 * vspan, k + num)
  }

  /** Lines 350-370: `vnum` fillers starting at `floor(local_min)`, with no
      gap between consecutive ones, the last reaching `vnum` spans up. */
  function LowerFillers(localMin: real, vspan: real, vnum: nat, num: nat): (r: seq<Slot>)
    requires vspan > 0.0
    ensures |r| == vnum
    ensures forall k :: 0 <= k < vnum ==> r[k].prio == k + num
    ensures vnum > 0 ==> r[0].lo == Floor(localMin) as real
    ensures forall k :: 0 <= k < vnum - 1 ==> r[k + 1].lo <= r[k].hi
    ensures vnum > 0 ==> localMin + Spans(vnum, vspan) <= r[vnum - 1].hi
  {
    var r := seq(vnum, k requires 0 <= k < vnum => LowerFiller(localMin, vspan, k, num));
    assert vnum > 0 ==> r[0].lo == Floor(localMin) as real by {
      if vnum > 0 {
        assert 0 as real * vspan == 0.0;
      }
    }
    r
  }

  /** Lines 338-342: the lowest candidate's lower bound becomes
      `floor(local_min)`, raised to `vh_min` if below it. */
  function ExtendLowest(bins: seq<Bin>, i: nat, p: Limits): (r: seq<Bin>)
    requires i < |bins|
    ensures |r| == |bins|
    ensures forall k :: 0 <= k < |bins| && k != i ==> r[k] == bins[k]
    ensures r[i].hi == bins[i].hi && r[i].peak == bins[i].peak
    ensures p.vhMin <= r[i].lo && Floor(p.localMin) as real <= r[i].lo
    ensures r[i].lo == Floor(p.localMin) as real || r[i].lo == p.vhMin
  {
    var lo0 := Floor(p.localMin) as real;
    bins[i := bins[i].(lo := if lo0 < p.vhMin then p.vhMin else lo0)]
  }

  /** The candidates after the lower-range step, and the filler slots placed
      ahead of them. */
  datatype Start = Start(cands: seq<Bin>, out: seq<Slot>)

  /** Gap between `local_min` and the lowest candidate. */
  function LowGap(bins: seq<Bin>, order: seq<nat>, p: Limits): real
    requires |order| > 0 && InRange(order, |bins|)
  {
    bins[order[0]].lo - p.localMin
  }

  /** Lines 333-372: room below the lowest candidate is covered either by
      extending that candidate or by filler slots. */
  function LowerRange(bins: seq<Bin>, order: seq<nat>, p: Limits): (r: Result<Start>)
    requires |bins| > 0 && |order| == |bins| && InRange(order, |bins|) && p.vhBox > 0.0
    requires |bins| <= p.maxVbin
    ensures r.Err? <==> LowGap(bins, order, p) > 0.0 && Floor(LowGap(bins, order, p) / p.vhBox) >= p.maxVbin
    ensures r.Err? ==> r.error == LowerFillerTooManyBins
    ensures r.Ok? ==> |r.value.cands| == |bins| && |r.value.out| < p.maxVbin
    ensures r.Ok? ==> PrioritySound(r.value.out, r.value.cands)
    ensures r.Ok? ==> forall k :: 0 <= k < |bins| && k != order[0] ==> r.value.cands[k] == bins[k]
    ensures r.Ok? ==> r.value.cands[order[0]].hi == bins[order[0]].hi
    ensures r.Ok? ==> r.value.cands[order[0]].peak == bins[order[0]].peak
  {
    var first := bins[order[0]];
    var gap := first.lo - p.localMin;
    if !(first.lo > p.localMin) then Ok(Start(bins, []))
    else
      var vnum := Floor(gap / p.vhBox);
      QuotientBounds(gap, p.vhBox);
      if vnum == 0 then Ok(Start(ExtendLowest(bins, order[0], p), []))
      else if vnum >= p.maxVbin then Err(LowerFillerTooManyBins)
      else Ok(Start(bins, LowerFillers(p.localMin, gap / vnum as real, vnum, |bins|)))
  }

  /** The lowest candidate already reaches `local_min`: nothing changes. */
  lemma LowerRangeNoGap(bins: seq<Bin>, order: seq<nat>, p: Limits)
    requires |bins| > 0 && |order| == |bins| && InRange(order, |bins|) && p.vhBox > 0.0
    requires |bins| <= p.maxVbin
    requires LowGap(bins, order, p) <= 0.0
    ensures LowerRange(bins, order, p) == Ok(Start(bins, []))
  {
  }

  /** A gap under one box: the lowest candidate is extended down to
      `floor(local_min)`, but not below `vh_min`, and no filler is added. */
  lemma LowerRangeExtends(bins: seq<Bin>, order: seq<nat>, p: Limits)
    requires |bins| > 0 && |order| == |bins| && InRange(order, |bins|) && p.vhBox > 0.0
    requires |bins| <= p.maxVbin
    requires 0.0 < LowGap(bins, order, p) < p.vhBox
    ensures var r := LowerRange(bins, order, p);
      && r.Ok? && r.value.out == []
      && var lo := r.value.cands[order[0]].lo;
         && p.vhMin <= lo && Floor(p.localMin) as real <= lo
         && (lo == Floor(p.localMin) as real || lo == p.vhMin)
  {
    QuotientBounds(LowGap(bins, order, p), p.vhBox);
  }

  /** A gap of at least one box: `trunc(gap / box)` fillers starting at
      `floor(local_min)` leave no hole between each other or up to the
      lowest candidate, whose bounds are untouched. */
  lemma LowerRangeFills(bins: seq<Bin>, order: seq<nat>, p: Limits)
    requires |bins| > 0 && |order| == |bins| && InRange(order, |bins|) && p.vhBox > 0.0
    requires |bins| <= p.maxVbin
    requires p.vhBox <= LowGap(bins, order, p)
    requires LowerRange(bins, order, p).Ok?
    ensures var r := LowerRange(bins, order, p).value;
      && r.cands == bins
      && |r.out| == Floor(LowGap(bins, order, p) / p.vhBox)
      && 0 < |r.out|
      && r.out[0].lo == Floor(p.localMin) as real
      && (forall k :: 0 <= k < |r.out| - 1 ==> r.out[k + 1].lo <= r.out[k].hi)
      && bins[order[0]].lo <= Last(r.out).hi
  {
    var gap := LowGap(bins, order, p);
    QuotientBounds(gap, p.vhBox);
    var vnum := Floor(gap / p.vhBox);
    assert 1 <= vnum;
    var vspan := gap / vnum as real;
    SpansOfEqualParts(gap, vnum);
    var fillers := LowerFillers(p.localMin, vspan, vnum, |bins|);
    assert LowerRange(bins, order, p) == Ok(Start(bins, fillers));
    assert p.localMin + Spans(vnum, vspan) <= fillers[vnum - 1].hi;
  }

  /* ---------------------------------------------------------------------
     The merge pass (lines 375-468)
     --------------------------------------------------------------------- */

  /** The overlap test of lines 384-385. */
  predicate Overlaps(last: Slot, c: Bin)
  {
    last.hi >= c.peak || c.lo <= last.peak
  }

  /** Lines 401-406: drop trailing slots whose lower bound is at or above
      `h`, then end the last kept slot at `h`. Testing the slot before the
      first is an out-of-bounds read. */
  function TrimTo(out: seq<Slot>, h: real): (r: Result<seq<Slot>>)
    requires |out| > 0
    ensures r.Err? <==> forall k :: 0 <= k < |out| ==> h <= out[k].lo
    ensures r.Err? ==> r.error == Undefined(PopsPastStart)
    ensures r.Ok? ==>
      && 0 < |r.value| <= |out|
      && r.value[..|r.value| - 1] == out[..|r.value| - 1]
      && (forall k :: |r.value| <= k < |out| ==> h <= out[k].lo)
      && Last(r.value) == out[|r.value| - 1].(hi := h)
      && Last(r.value).lo < h
    decreases |out|
  {
    if h <= Last(out).lo then
      if |out| == 1 then Err(Undefined(PopsPastStart))
      else
        var r := TrimTo(out[..|out| - 1], h);
        assert r.Ok? ==> r.value[..|r.value| - 1] == out[..|r.value| - 1];
        r
    else Ok(out[|out| - 1 := Last(out).(hi := h)])
  }

  /** Lines 389-407: an overlapping candidate against the last slot. A last
      slot of lower priority value (more important) than the candidate's
      index is kept and a slot from its end to the candidate's ceiled upper
      bound is appended; otherwise the list is trimmed back to the
      candidate's lower bound and the candidate itself is dropped. */
  function ResolveOverlap(out: seq<Slot>, c: Bin, idx: nat, num: nat): (r: Result<seq<Slot>>)
    requires |out| > 0
    ensures Last(out).prio < idx ==>
      && r.Ok? && |r.value| == |out| + 1 && r.value[..|out|] == out
      && r.value[|out|].lo == Last(out).hi
      && r.value[|out|].hi == Ceil(c.hi) as real
      && r.value[|out|].prio == |out| + num
    ensures Last(out).prio >= idx ==>
      && (r.Err? <==> forall k :: 0 <= k < |out| ==> c.lo <= out[k].lo)
      && (r.Ok? ==>
            && 0 < |r.value| <= |out|
            && (forall k :: 0 <= k < |r.value| ==> r.value[k].lo == out[k].lo && r.value[k].prio == out[k].prio && r.value[k].peak == out[k].peak)
            && Last(r.value).hi == c.lo)
  {
    if Last(out).prio < idx then
      var lo := Last(out).hi;
      var hi := Ceil(c.hi) as real;
      Ok(out + [Slot(lo, hi, lo + 0.5 * (hi - lo), |out| + num)])
    else
      var r := TrimTo(out, c.lo);
      assert r.Ok? ==> forall k :: 0 <= k < |r.value| - 1 ==> r.value[k] == r.value[..|r.value| - 1][k];
      r
  }

  /** Resolving an overlap keeps the priority discipline. */
  lemma ResolveOverlapSound(out: seq<Slot>, c: Bin, idx: nat, cands: seq<Bin>)
    requires |out| > 0
    ensures var r := ResolveOverlap(out, c, idx, |cands|);
      r.Ok? && PrioritySound(out, cands) ==> PrioritySound(r.value, cands)
  {
    var r := ResolveOverlap(out, c, idx, |cands|);
    if r.Ok? && PrioritySound(out, cands) && Last(out).prio >= idx {
      forall k | 0 <= k < |r.value|
        ensures r.value[k].lo == out[k].lo && r.value[k].prio == out[k].prio && r.value[k].peak == out[k].peak
      {
      }
    }
  }

  /** Lines 429-433: `n` bridging slots of span `vspan`, each starting where
      the previous slot ends and ending at the ceiling of that plus `vspan`. */
  function Bridge(out: seq<Slot>, vspan: real, n: nat, num: nat): (r: seq<Slot>)
    requires |out| > 0 && vspan > 0.0
    ensures |r| == |out| + n
    ensures r[..|out|] == out
    ensures forall k :: |out| <= k < |r| ==> r[k].lo == r[k - 1].hi && r[k].prio == k + num
    ensures Last(out).hi + Spans(n, vspan) <= Last(r).hi
    decreases n
  {
    if n == 0 then out
    else
      var lo := Last(out).hi;
      var next := out + [Slot(lo, Ceil(lo + vspan) as real, lo + 0.5 * vspan, |out| + num)];
      var r := Bridge(next, vspan, n - 1, num);
      assert r[..|out|] == next[..|out|];
      r
  }

  /** The reconciler's walk state: the index of the next sorted candidate
      (the loop counter `i`) and the working list. */
  datatype Walk = Walk(next: nat, out: seq<Slot>)

  /** Lines 409-436: the candidate starts above the end of the last slot.
      A gap narrower than one box is closed by moving that end up to the
      candidate; a wider one is bridged by `trunc(gap / box)` slots. The
      bridge reuses the walk's counter, so the walk resumes at sorted
      position `vnum + 1`, and the candidate itself is not added. */
  function CloseGap(out: seq<Slot>, c: Bin, next: nat, p: Limits, num: nat): (r: Result<Walk>)
    requires |out| > 0 && Last(out).hi < c.lo && p.vhBox > 0.0
    ensures c.lo - Last(out).hi < p.vhBox ==>
      && r.Ok? && r.value.next == next + 1
      && r.value.out == out[|out| - 1 := Last(out).(hi := c.lo)]
    ensures p.vhBox <= c.lo - Last(out).hi ==>
      var vnum := Floor((c.lo - Last(out).hi) / p.vhBox);
      && vnum >= 1
      && (r.Err? <==> |out| + vnum > p.maxVbin)
      && (r.Err? ==> r.error == Undefined(GapFillerOverflow))
      && (r.Ok? ==>
            && r.value.next == vnum + 1
            && |r.value.out| == |out| + vnum
            && r.value.out[..|out|] == out
            && (forall k :: |out| <= k < |r.value.out| ==> r.value.out[k].lo == r.value.out[k - 1].hi && r.value.out[k].prio == k + num)
            && c.lo <= Last(r.value.out).hi)
  {
    var gap := c.lo - Last(out).hi;
    var vnum := Floor(gap / p.vhBox);
    QuotientBounds(gap, p.vhBox);
    if vnum == 0 then Ok(Walk(next + 1, out[|out| - 1 := Last(out).(hi := c.lo)]))
    else if |out| + vnum > p.maxVbin then Err(Undefined(GapFillerOverflow))
    else
      var vspan := gap / vnum as real;
      SpansOfEqualParts(gap, vnum);
      Ok(Walk(vnum + 1, Bridge(out, vspan, vnum, num)))
  }

  /** Lines 383-407 as one placement: the overlap is resolved and the
      counter moves on; the list grows by at most the one appended slot. */
  function PlaceOverlap(cands: seq<Bin>, idx: nat, next: nat, out: seq<Slot>): (r: Result<Walk>)
    requires idx < |cands| && |out| > 0
    ensures r.Err? ==> r.error == Undefined(PopsPastStart)
    ensures r.Ok? ==> r.value.next == next + 1 && 0 < |r.value.out| <= |out| + 1
    ensures r.Ok? && PrioritySound(out, cands) ==> PrioritySound(r.value.out, cands)
  {
    match ResolveOverlap(out, cands[idx], idx, |cands|)
    case Err(e) => Err(e)
    case Ok(out') =>
      ResolveOverlapSound(out, cands[idx], idx, cands);
      Ok(Walk(next + 1, out'))
  }

  /** Lines 409-436 as one placement: the gap above the last slot is
      closed or bridged, and only a bridge past `max_vbin` fails. */
  function PlaceGap(cands: seq<Bin>, p: Limits, idx: nat, next: nat, out: seq<Slot>): (r: Result<Walk>)
    requires idx < |cands| && |out| > 0 && Last(out).hi < cands[idx].lo && p.vhBox > 0.0
    requires |out| < p.maxVbin
    ensures r.Err? ==> r.error == Undefined(GapFillerOverflow)
    ensures r.Ok? ==> |r.value.out| <= p.maxVbin
    ensures r.Ok? ==> r.value.next == next + 1 || |r.value.out| > |out|
    ensures r.Ok? && PrioritySound(out, cands) ==> PrioritySound(r.value.out, cands)
  {
    CloseGap(out, cands[idx], next, p, |cands|)
  }

  /** Lines 450-461: the first slot takes the floored lower bound of the
      candidate, which is copied only when it has positive width. */
  function PlaceFirst(cands: seq<Bin>, idx: nat, next: nat): (r: Walk)
    requires idx < |cands|
    ensures r.next == next + 1
    ensures |r.out| == (if cands[idx].lo < cands[idx].hi then 1 else 0)
    ensures PrioritySound(r.out, cands)
  {
    var c := cands[idx];
    var s := Slot(Floor(c.lo) as real, Ceil(c.hi) as real, c.peak, idx);
    if c.lo < c.hi then
      PrioritySoundSnoc([], s, cands);
      Walk(next + 1, [] + [s])
    else Walk(next + 1, [])
  }

  /** Lines 437-448: no conflict with the last slot; the candidate is
      appended with its own lower bound when it has positive width. */
  function PlaceFree(cands: seq<Bin>, idx: nat, next: nat, out: seq<Slot>): (r: Walk)
    requires idx < |cands|
    ensures r.next == next + 1
    ensures |r.out| == |out| + (if cands[idx].lo < cands[idx].hi then 1 else 0)
    ensures r.out[..|out|] == out
    ensures PrioritySound(out, cands) ==> PrioritySound(r.out, cands)
  {
    var c := cands[idx];
    var s := Slot(c.lo, Ceil(c.hi) as real, c.peak, idx);
    if c.lo < c.hi then
      PrioritySoundSnoc(out, s, cands);
      Walk(next + 1, out + [s])
    else Walk(next + 1, out)
  }

  /** One iteration of the merge loop before its capacity test: the sorted
      candidate at position `w.next` against the working list. */
  function Place(cands: seq<Bin>, order: seq<nat>, p: Limits, w: Walk): (r: Result<Walk>)
    requires InRange(order, |cands|) && w.next < |order| && p.vhBox > 0.0
    requires |w.out| < p.maxVbin
    ensures r.Err? ==> r.error == Undefined(PopsPastStart) || r.error == Undefined(GapFillerOverflow)
    ensures r.Ok? ==> |r.value.out| <= p.maxVbin
    ensures r.Ok? && PrioritySound(w.out, cands) ==> PrioritySound(r.value.out, cands)
    ensures r.Ok? ==> r.value.next == w.next + 1 || |r.value.out| > |w.out|
  {
    var idx := order[w.next];
    var c := cands[idx];
    if |w.out| == 0 then Ok(PlaceFirst(cands, idx, w.next))
    else if Overlaps(Last(w.out), c) then PlaceOverlap(cands, idx, w.next, w.out)
    else if Last(w.out).hi < c.lo then PlaceGap(cands, p, idx, w.next, w.out)
    else Ok(PlaceFree(cands, idx, w.next, w.out))
  }

  /** Lines 375-468: one iteration including the capacity test after it. */
  function Step(cands: seq<Bin>, order: seq<nat>, p: Limits, w: Walk): (r: Result<Walk>)
    requires InRange(order, |cands|) && w.next < |order| && p.vhBox > 0.0
    requires |w.out| < p.maxVbin
    ensures r.Ok? ==> |r.value.out| < p.maxVbin
    ensures r.Ok? && PrioritySound(w.out, cands) ==> PrioritySound(r.value.out, cands)
    ensures Place(cands, order, p, w).Ok? ==>
      (r.Err? <==> |Place(cands, order, p, w).value.out| >= p.maxVbin)
    ensures r.Err? && Place(cands, order, p, w).Ok? ==> r.error == MergeTooManyBins
    ensures r.Err? ==> ReconcilerError(r.error)
  {
    match Place(cands, order, p, w)
    case Err(e) => Err(e)
    case Ok(w') => if |w'.out| >= p.maxVbin then Err(MergeTooManyBins) else Ok(w')
  }

  /** The merge loop, run for at most `fuel` iterations. Because a bridged
      gap rewinds the loop counter, the source loop need not terminate. */
  function WalkFrom(cands: seq<Bin>, order: seq<nat>, p: Limits, w: Walk, fuel: nat): (r: Result<seq<Slot>>)
    requires InRange(order, |cands|) && p.vhBox > 0.0
    requires |w.out| < p.maxVbin
    ensures r.Ok? ==> |r.value| < p.maxVbin
    ensures r.Ok? && PrioritySound(w.out, cands) ==> PrioritySound(r.value, cands)
    ensures w.next >= |order| ==> r == Ok(w.out)
    ensures r.Err? ==> ReconcilerError(r.error)
    decreases fuel
  {
    if w.next >= |order| then Ok(w.out)
    else if fuel == 0 then Err(OutOfFuel)
    else
      match Step(cands, order, p, w)
      case Err(e) => Err(e)
      case Ok(w') => WalkFrom(cands, order, p, w', fuel - 1)
  }

  /* ---------------------------------------------------------------------
     Above the last slot (lines 470-500)
     --------------------------------------------------------------------- */

  /** Lines 486-498: up to `left` fillers of span `vspan`, each starting
      where the previous slot ends, capped at `vh_max` and ceiled, stopping
      once the last slot reaches `vh_max`. The loop has no capacity test. */
  function UpperFillers(out: seq<Slot>, vspan: real, left: nat, p: Limits, num: nat): (r: Result<seq<Slot>>)
    requires |out| > 0 && vspan > 0.0
    ensures r.Err? ==> r.error == Undefined(UpperFillerOverflow)
    ensures r.Ok? ==>
      && |out| <= |r.value| <= |out| + left
      && r.value[..|out|] == out
      && (forall k :: |out| <= k < |r.value| ==> r.value[k].lo == r.value[k - 1].hi && r.value[k].prio == k + num)
    ensures r.Ok? && |r.value| < |out| + left ==> p.vhMax <= Last(r.value).hi
    ensures r.Ok? && |out| <= p.maxVbin ==> |r.value| <= p.maxVbin
    decreases left
  {
    if left == 0 || !(Last(out).hi < p.vhMax) then Ok(out)
    else if |out| >= p.maxVbin then Err(Undefined(UpperFillerOverflow))
    else
      var next := out + [UpperFiller(out, vspan, p, num)];
      var r := UpperFillers(next, vspan, left - 1, p, num);
      assert r.Ok? ==> r.value[..|out|] == next[..|out|];
      r
  }

  /** The filler appended after `Last(out)`. */
  function UpperFiller(out: seq<Slot>, vspan: real, p: Limits, num: nat): (s: Slot)
    requires |out| > 0
    ensures s.lo == Last(out).hi && s.prio == |out| + num
    ensures Last(out).hi + vspan <= s.hi || p.vhMax <= s.hi
  {
    var lo := Last(out).hi;
    var h := if lo + vspan > p.vhMax then p.vhMax else lo + vspan;
    Slot(lo, Ceil(h) as real, 0.5 * (h - lo) + lo, |out| + num)
  }

  /** The upper fillers reach a target `left` spans above the last slot,
      unless they stop at `vh_max` first. */
  lemma {:induction false} UpperFillersReach(out: seq<Slot>, vspan: real, left: nat, p: Limits, num: nat, target: real)
    requires |out| > 0 && vspan > 0.0
    requires target <= Last(out).hi + Spans(left, vspan)
    requires UpperFillers(out, vspan, left, p, num).Ok?
    ensures var r := UpperFillers(out, vspan, left, p, num).value;
      target <= Last(r).hi || p.vhMax <= Last(r).hi
    decreases left
  {
    if left == 0 || !(Last(out).hi < p.vhMax) {
    } else {
      var next := out + [UpperFiller(out, vspan, p, num)];
      UpperFillersUnfold(out, vspan, left, p, num);
      if Last(out).hi + vspan <= Last(next).hi {
        ReachAfterFiller(Last(out).hi, Last(next).hi, vspan, left, target);
        UpperFillersReach(next, vspan, left - 1, p, num, target);
      }
    }
  }

  lemma UpperFillersUnfold(out: seq<Slot>, vspan: real, left: nat, p: Limits, num: nat)
    requires |out| > 0 && vspan > 0.0 && left > 0 && Last(out).hi < p.vhMax
    requires UpperFillers(out, vspan, left, p, num).Ok?
    ensures var next := out + [UpperFiller(out, vspan, p, num)];
      && UpperFillers(out, vspan, left, p, num) == UpperFillers(next, vspan, left - 1, p, num)
      && (p.vhMax <= Last(next).hi ==> UpperFillers(next, vspan, left - 1, p, num) == Ok(next))
  {
  }

  lemma ReachAfterFiller(prevHi: real, hi: real, vspan: real, left: nat, target: real)
    requires left > 0 && prevHi + vspan <= hi
    requires target <= prevHi + Spans(left, vspan)
    ensures target <= hi + Spans(left - 1, vspan)
  {
  }

  /** Lines 470-500: if the last slot ends below `local_max`, a gap under
      one box is closed by raising its end to `ceil(local_max)` capped at
      `vh_max`; a wider one gets fillers. The test reads the last slot
      whether or not there is one. */
  function UpperRange(out: seq<Slot>, p: Limits, cands: seq<Bin>): (r: Result<seq<Slot>>)
    requires p.vhBox > 0.0 && |out| <= p.maxVbin
    ensures |out| == 0 ==> r == Err(Undefined(ReadsBeforeStart))
    ensures |out| > 0 && p.localMax <= Last(out).hi ==> r == Ok(out)
    ensures |out| > 0 && Last(out).hi < p.localMax && p.localMax - Last(out).hi < p.vhBox ==>
      && r.Ok? && |r.value| == |out| && r.value[..|out| - 1] == out[..|out| - 1]
      && Last(r.value).hi <= p.vhMax
      && (p.localMax <= Last(r.value).hi || Last(r.value).hi == p.vhMax)
    ensures r.Ok? ==> |r.value| <= p.maxVbin && |out| <= |r.value|
    ensures r.Ok? ==> TopReached(r.value, p)
    ensures r.Ok? && PrioritySound(out, cands) ==> PrioritySound(r.value, cands)
    ensures r.Err? && |out| > 0 ==> r.error == Undefined(UpperFillerOverflow)
  {
    if |out| == 0 then Err(Undefined(ReadsBeforeStart))
    else if !(Last(out).hi < p.localMax) then Ok(out)
    else
      var gap := p.localMax - Last(out).hi;
      var vnum := Floor(gap / p.vhBox);
      QuotientBounds(gap, p.vhBox);
      if vnum == 0 then
        var r := RaiseLast(out, p);
        PrioritySoundRelabel(out, r, cands);
        Ok(r)
      else
        var r := FillAbove(out, p, vnum, |cands|);
        if r.Ok? then
          PrioritySoundExtend(out, r.value, cands);
          r
        else r
  }

  /** Lines 477-481: the last slot's end raised to `ceil(local_max)`,
      capped at `vh_max`. */
  function RaiseLast(out: seq<Slot>, p: Limits): (r: seq<Slot>)
    requires |out| > 0
    ensures |r| == |out| && r[..|out| - 1] == out[..|out| - 1]
    ensures Last(r) == Last(out).(hi := Last(r).hi)
    ensures Last(r).hi <= p.vhMax && Last(r).hi <= Ceil(p.localMax) as real
    ensures Last(r).hi == Ceil(p.localMax) as real || Last(r).hi == p.vhMax
    ensures p.localMax <= Last(r).hi || Last(r).hi == p.vhMax
  {
    var h := Ceil(p.localMax) as real;
    out[|out| - 1 := Last(out).(hi := if h > p.vhMax then p.vhMax else h)]
  }

  /** Lines 482-498: the gap from the last slot to `local_max` cut into
      `vnum` equal spans and filled; the fillers reach `local_max` unless
      they stop at `vh_max`. */
  function FillAbove(out: seq<Slot>, p: Limits, vnum: nat, num: nat): (r: Result<seq<Slot>>)
    requires |out| > 0 && 0 < vnum && Last(out).hi < p.localMax
    ensures r.Err? ==> r.error == Undefined(UpperFillerOverflow)
    ensures r.Ok? ==>
      && |out| <= |r.value| <= |out| + vnum
      && r.value[..|out|] == out
      && (forall k :: |out| <= k < |r.value| ==> r.value[k].prio == k + num)
    ensures r.Ok? && |out| <= p.maxVbin ==> |r.value| <= p.maxVbin
    ensures r.Ok? ==> TopReached(r.value, p)
  {
    var gap := p.localMax - Last(out).hi;
    var vspan := gap / vnum as real;
    SpansOfEqualParts(gap, vnum);
    var r := UpperFillers(out, vspan, vnum, p, num);
    if r.Ok? then
      UpperFillersReach(out, vspan, vnum, p, num, p.localMax);
      r
    else r
  }

  /* ---------------------------------------------------------------------
     The whole reconciler (lines 307-518)
     --------------------------------------------------------------------- */

  /** Lines 503-508: what is copied back to `vh_mins` / `vh_maxs`. */
  function Intervals(out: seq<Slot>): (r: seq<Interval>)
    ensures |r| == |out|
    ensures forall k :: 0 <= k < |out| ==> r[k] == Interval(out[k].lo, out[k].hi)
  {
    seq(|out|, k requires 0 <= k < |out| => Interval(out[k].lo, out[k].hi))
  }

  /** `sort_expand_boundaries`: the reconciled slots, in the order they are
      copied back. An empty candidate list gives an empty result. */
  function SortExpand(bins: seq<Bin>, order: seq<nat>, p: Limits, fuel: nat): (r: Result<seq<Slot>>)
    requires IsArgSort(order, Los(bins)) && p.vhBox > 0.0
    requires |bins| <= p.maxVbin
    ensures |bins| == 0 ==> r == Ok([])
    ensures r.Err? ==> ReconcilerError(r.error)
    ensures r.Ok? ==> |r.value| <= p.maxVbin
    ensures r.Ok? && |bins| > 0 ==> TopReached(r.value, p)
  {
    if |bins| == 0 then Ok([])
    else
      match LowerRange(bins, order, p)
      case Err(e) => Err(e)
      case Ok(start) =>
        match WalkFrom(start.cands, order, p, Walk(0, start.out), fuel)
        case Err(e) => Err(e)
        case Ok(out) => UpperRange(out, p, start.cands)
  }

  /** Every slot of a successful reconciliation is a copy of a candidate,
      carrying its index, or a synthesised slot carrying its position plus
      the candidate count. */
  lemma SortExpandSound(bins: seq<Bin>, order: seq<nat>, p: Limits, fuel: nat)
    requires IsArgSort(order, Los(bins)) && p.vhBox > 0.0
    requires |bins| <= p.maxVbin
    ensures SortExpand(bins, order, p, fuel).Ok? && |bins| > 0 ==>
      && LowerRange(bins, order, p).Ok?
      && PrioritySound(SortExpand(bins, order, p, fuel).value, LowerRange(bins, order, p).value.cands)
  {
  }

  /** The candidates ordered by lower bound, reconciled, and copied back as
      bounds (lines 327-329 and 502-508). */
  function Reconciled(bins: seq<Bin>, p: Limits, fuel: nat): (r: Result<seq<Interval>>)
    requires p.vhBox > 0.0 && |bins| <= p.maxVbin
    ensures |bins| == 0 ==> r == Ok([])
    ensures r.Err? ==> ReconcilerError(r.error)
    ensures r.Ok? ==> |r.value| <= p.maxVbin
    ensures r.Ok? && |bins| > 0 ==> ReachesTop(r.value, p.localMax, p.vhMax)
  {
    var r := SortExpand(bins, ArgSort(Los(bins)), p, fuel);
    if r.Err? then Err(r.error)
    else
      IntervalsReachTop(r.value, p);
      Ok(Intervals(r.value))
  }

  /** Lines 502-508: the bounds copied back are those of the reconciled
      slots, slot by slot, and the outcome is the reconciler's. */
  lemma ReconciledCopiesBack(bins: seq<Bin>, p: Limits, fuel: nat)
    requires p.vhBox > 0.0 && |bins| <= p.maxVbin
    ensures var slots := SortExpand(bins, ArgSort(Los(bins)), p, fuel);
      var r := Reconciled(bins, p, fuel);
      && (r.Ok? <==> slots.Ok?)
      && (r.Err? ==> r.error == slots.error)
      && (r.Ok? ==> |r.value| == |slots.value|)
      && (r.Ok? ==> forall k :: 0 <= k < |r.value| ==>
            r.value[k].lo == slots.value[k].lo && r.value[k].hi == slots.value[k].hi)
  {
  }

  lemma IntervalsReachTop(out: seq<Slot>, p: Limits)
    ensures TopReached(out, p) ==> ReachesTop(Intervals(out), p.localMax, p.vhMax)
  {
  }
}
